=== FILE: README.md ===
# trip-planning-web sync core, modelled in Dafny

This project models the local-first persistence and synchronisation core of
trip-planning-web. A shared worker owns one Loro CRDT document. It persists the
document to the browser's key-value store as a snapshot plus a bounded log of
update batches. It exposes the document to UI tabs by converting containers
(maps, lists, movable lists) to tagged *transport envelopes* and back.

The modules follow the source files:

| module | file | what it holds |
|---|---|---|
| `Wrappers` | (none) | `Option`, `Result` |
| `JsValue` | (none) | JavaScript values, objects as ordered entry sequences, property read/assignment, truthiness |
| `ContainerTree` | (none) | the container tree: `Leaf`, `MapC`, `ListC(Plain \| Movable)`, `OtherC` (text/tree/counter) |
| `Transport` | loro-converters/transport.ts | envelope shape and `isLoroTransport` |
| `ClientCodec` | loro-converters/client.ts | `LoroMapClient` get/set/iterator, client serialise/deserialise |
| `WorkerCodec` | loro-converters/worker.ts | worker serialise/deserialise, agreement with the client codec |
| `Persistence` | db.ts | `loadLoroSave`/`saveLoro` as a state machine over the stored keys |
| `WsMessage` | ws-message.ts | WebSocket frame `encode`/`decode` |
| `SyncWorker` | sync-worker.ts | `getContainer`, `subscribe`, `unsubscribe`, listener calls, `editCity` |
| `Utils` | utils.ts | `flattenLoroClientMap`, `recordToArray` |

Main results:
- **Round trip.** For every map or list tree whose leaves are neither `null` nor
  envelope-shaped, decoding the encoding gives back the same tree. This holds on
  each side, and for a value sent from worker to client or from client to worker.
  The two serialisers produce identical envelopes.
- **Counterexamples.** If the leaf conditions are dropped, the round trip fails.
  A `null` leaf makes the recogniser throw. A leaf object tagged `loroType: "map"`
  comes back as a map container.
- **Persistence.** Every save stores at most 10 update batches, and the count
  cycles 0, 1, …, 10, 0. Loading after a save recovers the saved operation set.
  A restart after a session of edits and saves recovers the final document and
  keeps the peer id. A stored peer id of 0 is treated as missing (`if (peerId)`).
- **Framing.** `decode(encode(m)) == m`. Every frame `decode` accepts is an
  encoding, possibly followed by extra elements. The rejection cases are proved.
- **Worker handlers.** `subscribe` registers exactly one listener on a
  container, and only on a container. An unsubscribed listener is never called.
  A listener always sends its whole container, never the diff. `editCity` with an
  unknown id is a no-op. On a known city it writes top-level `lat`/`long`, leaves
  everything else alone, and commits nothing.

Three behaviours of the code are worth knowing when reading the model:
- `editCity` does not commit. Its two writes stay pending (`Worker.pending`),
  but `getByPath` already sees them.
- Envelope recognition looks only at the `loroType` tag. A leaf object
  carrying one of the three tags is therefore decoded as a container, as the
  counterexample lemmas show.
- `editCity` writes `lat`/`long` as top-level keys of the city map, while the
  declared `CityAttrs` shape (src/lib/db.ts:10,14) places them under `attrs`.
  `SyncWorker.EditKnownCity` proves that `attrs` is untouched.

## Model

| member | source | states |
|---|---|---|
| Transport.IsLoroTransport | src/lib/loro-converters/transport.ts:6-7 | `null` makes the recogniser throw a TypeError. An envelope is recognised exactly when it is an object whose `loroType` is one of `list`, `movable-list`, `map`. |
| Transport.RecognisesTag | src/lib/loro-converters/transport.ts:7 | Any object carrying one of the three tags is recognised, whatever else it holds. |
| Transport.RejectsOtherTags | src/lib/loro-converters/transport.ts:7 | An object with no `loroType`, or with any other value there, is a leaf. |
| Transport.NonObjectsAreLeaves | src/lib/loro-converters/transport.ts:7 | Strings, numbers, booleans, `undefined` and arrays are never envelopes. |
| Transport.TagAloneIsEnough | src/lib/loro-converters/transport.ts:7 | `{loroType: "map"}` with no payload is still accepted. |
| Transport.MapEnvelope | src/lib/loro-converters/transport.ts:1 | A map envelope satisfies the recogniser, carries tag `map` and holds its payload under `map`. |
| Transport.ListEnvelope | src/lib/loro-converters/transport.ts:2 | A list envelope satisfies the recogniser, carries the tag of its list kind and holds its items under `list`. |
| ClientCodec.MapGet | src/lib/loro-converters/client.ts:11-13 | `get(k)` is defined exactly when the record has own property `k`. It is then the value of the first entry with key `k`. |
| ClientCodec.MapSet | src/lib/loro-converters/client.ts:14-16 | `set` keeps the key order when the key exists and appends the key otherwise. A record without repeated keys never gains one. |
| ClientCodec.SetThenGet | src/lib/loro-converters/client.ts:11-16 | `get(k)` after `set(k, v)` is `v`; every other key reads as before. |
| ClientCodec.Iterate | src/lib/loro-converters/client.ts:17-20 | A fresh iterator's first `next()` yields the first entry, or reports `done` at once on an empty record. |
| ClientCodec.Next | src/lib/loro-converters/client.ts:21-28 | `next()` advances by one. It yields the entry at the new index and reports `done` exactly when the index has passed the last entry. |
| ClientCodec.DoneIsFinal | src/lib/loro-converters/client.ts:22-27 | Once `done` is reported it stays reported. |
| ClientCodec.ForOf | src/lib/loro-converters/client.ts:17-30 | Iterating a map client visits exactly its entries, in `Object.entries` order. |
| ClientCodec.TrySerialize | src/lib/loro-converters/client.ts:39-42 | Leaves pass through unchanged. A container becomes exactly its `serializeLoroClient` envelope, which is recognised. |
| ClientCodec.Serialize | src/lib/loro-converters/client.ts:49-60 | A list client is tagged `list`, a movable list `movable-list`, a map `map`. The payload is the element-wise conversion. |
| ClientCodec.SerializeItems | src/lib/loro-converters/client.ts:50-51 | The list payload has the same length, and index i holds converted element i. |
| ClientCodec.SerializeEntries | src/lib/loro-converters/client.ts:52-58 | The map payload has the same keys in the same order, each value converted. |
| ClientCodec.TryDeserialize | src/lib/loro-converters/client.ts:44-47 | A non-envelope value comes back as a leaf, and `null` throws a TypeError. A recognised envelope is rebuilt exactly as `deserializeLoroTransport` rebuilds it. |
| ClientCodec.Deserialize | src/lib/loro-converters/client.ts:63-76 | On success the input was a recognised envelope whose tag names the kind of the rebuilt container. A rebuilt list's items are the converted elements of its `list` array, and a rebuilt map's entries are the converted entries of its `map` object. Conversely, a recognised list envelope with an array payload, or a map envelope with an object payload, whose elements all convert does decode. An unknown tag throws "unimplemented". `null`/`undefined` throw a TypeError. |
| ClientCodec.DeserializeItems | src/lib/loro-converters/client.ts:65-66 | It succeeds exactly when every element converts. The rebuilt list then has the payload's length, and item i is the conversion of payload element i. |
| ClientCodec.DeserializeEntries | src/lib/loro-converters/client.ts:67-73 | It succeeds exactly when every value converts. The rebuilt map then has the payload's keys in order, each value converted. |
| ClientCodec.RoundTrip | src/lib/loro-converters/client.ts:49-76 | `deserializeLoroTransport(serializeLoroClient(c))` equals `c` when no leaf is `null` or envelope-shaped. |
| ClientCodec.ItemRoundTrip | src/lib/loro-converters/client.ts:39-47 | The same round trip for any value, leaf or container. |
| ClientCodec.ItemsRoundTrip | src/lib/loro-converters/client.ts:50-51 | The same round trip for a list payload. |
| ClientCodec.EntriesRoundTrip | src/lib/loro-converters/client.ts:52-58 | The same round trip for a map payload. |
| ClientCodec.NullLeafBreaksRoundTrip | src/lib/loro-converters/client.ts:44-47 | A list holding `null` serialises, but decoding it throws a TypeError. |
| ClientCodec.EnvelopeShapedLeafIsMisread | src/lib/loro-converters/client.ts:44-47 | A leaf object tagged `map` is read back as an empty map container. |
| WorkerCodec.SerializeItem | src/lib/loro-converters/worker.ts:28-29 | Leaves are copied unchanged, and a container is converted exactly as `serializeContainer` converts it. A value fails exactly when it contains an unsupported container, and then with "unimplemented". |
| WorkerCodec.SerializeContainer | src/lib/loro-converters/worker.ts:9-14 | It fails with "unimplemented" exactly when a text, tree or counter container occurs at any depth. Otherwise it yields a recognised envelope tagged with the container's kind. A map's `map` payload is its converted entries, and a list's `list` payload is its converted items. |
| WorkerCodec.SerializeLoroMap | src/lib/loro-converters/worker.ts:25-32 | Every key is kept in order and every value converted. It fails exactly when some value holds an unsupported container. |
| WorkerCodec.SerializeLoroList | src/lib/loro-converters/worker.ts:43-51 | Same length, and index i holds converted element i. It fails exactly when some element holds an unsupported container. |
| WorkerCodec.DeserializeItem | src/lib/loro-converters/worker.ts:37-38 | A non-envelope value is stored as a plain value, and `null` throws a TypeError. A recognised envelope is rebuilt exactly as `deserializeLoroTransport` rebuilds it. |
| WorkerCodec.DeserializeLoroTransport | src/lib/loro-converters/worker.ts:17-22 | On success the tag names the kind of the rebuilt container. A list holds the `list` payload's items inserted at the same indices, and a map holds the `map` payload's entries set under the same keys. Conversely, a recognised envelope with an array (list) or object (map) payload whose elements all convert does decode. An unknown tag throws "unimplemented". `null`/`undefined` throw a TypeError. |
| WorkerCodec.DeserializeLoroMap | src/lib/loro-converters/worker.ts:34-41 | It succeeds exactly when every value converts. Each entry is then set under its own key, in order. |
| WorkerCodec.DeserializeLoroList | src/lib/loro-converters/worker.ts:53-60 | It succeeds exactly when every item converts. Item i is then inserted at index i, and the list has the payload's length. |
| WorkerCodec.RoundTrip | src/lib/loro-converters/worker.ts:9-60 | Deserialising a serialised map/list tree gives back the same tree, under the same leaf conditions. |
| WorkerCodec.ItemRoundTrip | src/lib/loro-converters/worker.ts:28-29 | The same round trip for any value. |
| WorkerCodec.ListRoundTrip | src/lib/loro-converters/worker.ts:43-60 | The same round trip for a list's items. |
| WorkerCodec.MapRoundTrip | src/lib/loro-converters/worker.ts:25-41 | The same round trip for a map's entries. |
| WorkerCodec.SameWireShape | src/lib/loro-converters/worker.ts:9-51 | The worker and the client put the identical envelope on the wire for the same tree. |
| WorkerCodec.SameWireShapeItem | src/lib/loro-converters/worker.ts:28-29 | The two codecs agree on any single value. |
| WorkerCodec.SameWireShapeItems | src/lib/loro-converters/worker.ts:43-51 | The two codecs agree on list payloads. |
| WorkerCodec.SameWireShapeEntries | src/lib/loro-converters/worker.ts:25-32 | The two codecs agree on map payloads. |
| WorkerCodec.WorkerToClient | src/lib/loro-converters/worker.ts:63-69 | A container pushed by the worker serializes, and the client rebuilds it as the same tree. |
| WorkerCodec.ClientToWorker | src/lib/loro-converters/worker.ts:63-69 | A container sent by the client is rebuilt by the worker as the same tree. |
| WorkerCodec.NestedTextIsUnimplemented | src/lib/loro-converters/worker.ts:9-14 | A text container nested in a map makes serialisation throw "unimplemented". |
| WorkerCodec.NullLeafBreaksRoundTrip | src/lib/loro-converters/worker.ts:34-41 | A map holding `null` serialises, but rebuilding it throws a TypeError. |
| Persistence.ImportAll | src/lib/db.ts:34 | Importing a batch list keeps the document's operations and adds every operation of every batch, and nothing else. |
| Persistence.Load | src/lib/db.ts:21-37 | The document holds the snapshot (or nothing) plus every stored batch. A stored non-zero peer id is reused and storage is unchanged. Otherwise the fresh id is used and written to `peer-id`. |
| Persistence.Save | src/lib/db.ts:43-61 | With fewer than 10 stored updates, exactly one delta (the ops since the stored version) is appended and the snapshot is untouched. With 10 or more, the snapshot becomes the full state and the list is emptied. The current version is always stored, and at most 10 updates remain. |
| Persistence.SaveStoresDocument | src/lib/db.ts:43-61 | From consistent storage that the document has grown out of, a save leaves consistent storage that holds exactly the document. |
| Persistence.LoadAfterSave | src/lib/db.ts:21-61 | Loading after a save recovers the saved document. |
| Persistence.UpdateCountCycles | src/lib/db.ts:46-58 | Starting from c stored updates, n saves leave (c + n) mod 11. |
| Persistence.EleventhSaveCompacts | src/lib/db.ts:48-53 | From empty storage, ten saves store ten updates, and the eleventh save writes a snapshot of its document. |
| Persistence.SessionIsRecoverable | src/lib/db.ts:43-61 | Any run of edit-then-save steps keeps storage consistent. After at least one save, storage holds exactly the current document. |
| Persistence.RestartRecoversSession | src/lib/db.ts:21-61 | From consistent storage, with a non-zero fresh peer id at the first load: load, edit and save any number of times (zero included), then load again. The result is the last document, with the same peer id. A fresh id of 0 would be treated as absent at the next load. |
| Persistence.SessionKeepsPeer | src/lib/db.ts:43-61 | Saving never changes the stored peer id or the document's peer. |
| Persistence.ZeroPeerIdIsReplaced | src/lib/db.ts:30-31 | A stored peer id of 0 is treated as missing and overwritten with the fresh id. |
| WsMessage.Encode | src/lib/ws-message.ts:29-40 | The frame is a two-element array: the type string, then the numeric payload. |
| WsMessage.Decode | src/lib/ws-message.ts:11-27 | A message is produced exactly when the frame is an array whose element 0 is a known type and whose element 1 is a number. The variant matches element 0. |
| WsMessage.RoundTrip | src/lib/ws-message.ts:11-40 | `decode(encode(m)) == m` for both variants. |
| WsMessage.DecodeInvertsEncode | src/lib/ws-message.ts:11-40 | Every accepted frame begins with the encoding of the decoded message. |
| WsMessage.ExtraElementsIgnored | src/lib/ws-message.ts:15-24 | Elements past index 1 do not change the result. |
| WsMessage.Rejections | src/lib/ws-message.ts:13-26 | A non-array, an empty array, an unknown type and a non-numeric payload all decode to `null`. |
| SyncWorker.GetContainer | src/lib/sync-worker.ts:34-42 | Returns the resolved value exactly when it is a container. A leaf or a missing path gives `null`. Paths under `cities` are resolved by walking the live city tree. |
| SyncWorker.Subscribe | src/lib/sync-worker.ts:43-54 | On a non-container path it returns `null` and changes nothing. On a container it registers exactly one new listener for that container and callback, under a fresh id that it returns. |
| SyncWorker.Unsubscribe | src/lib/sync-worker.ts:55-58 | The id's listener is dropped and all others are kept. An unknown id changes nothing. |
| SyncWorker.Notify | src/lib/sync-worker.ts:47-49 | Defines Loro's dispatch, which the source does not show: each listener on a touched container calls its own callback once, with its container. The properties are in the three lemmas below. |
| SyncWorker.SubscribedCallbackFires | src/lib/sync-worker.ts:43-54 | After a successful subscribe, a commit touching the container calls the callback with that container. |
| SyncWorker.UnsubscribedCallbackIsSilent | src/lib/sync-worker.ts:55-58 | After `unsubscribe(id)` that subscription is never called. |
| SyncWorker.PushIgnoresDiff | src/lib/sync-worker.ts:47-48 | What is pushed does not depend on the change: the whole container is sent, not a diff. This records the listener's signature, since the closure ignores its event. |
| SyncWorker.EditCity | src/lib/sync-worker.ts:62-68 | It fails exactly when the city is present, is not a map, and is not a falsy leaf, and then with a TypeError. A missing city or a falsy leaf city leaves the worker unchanged. It never creates a city and never touches the other roots or the listeners. City ids stay distinct. |
| SyncWorker.EditUnknownCityIsNoOp | src/lib/sync-worker.ts:62-64 | An unknown city id changes nothing. |
| SyncWorker.EditKnownCity | src/lib/sync-worker.ts:62-68 | On a city map, top-level `lat`/`long` read back as the arguments. Every other key of the city (`attrs` included) and every other city is unchanged. The two writes are left uncommitted. |
| SyncWorker.EditCityResolution | src/lib/sync-worker.ts:62-68 | After the edit, `getByPath("cities/<id>/lat")` and `.../long` give the new numbers before any commit. Every path not at or below those two resolves as before. |
| Utils.FlattenLoroClientMap | src/lib/utils.ts:8-10 | Same length and keys in order; each output value is the `.value` of the input's map client. |
| Utils.FlattenKeys | src/lib/utils.ts:8-9 | The output has exactly the input's keys. |
| Utils.FlattenLookup | src/lib/utils.ts:8-10 | A key reads as the `.value` of the map client under it, and missing keys stay missing. |
| Utils.Spread | src/lib/utils.ts:13-16 | An object spread keeps every base key in its position and adds at most one key per spread field. |
| Utils.Row | src/lib/utils.ts:13-16 | A row starts with `keyName` and has at most one more key than the value has own properties. |
| Utils.RecordToArray | src/lib/utils.ts:12-17 | One row per entry, in entry order, built from that entry's key and value. |
| Utils.SpreadGet | src/lib/utils.ts:13-16 | In an object spread, a spread field overrides the base. Other keys read as in the base. |
| Utils.SpreadKeepsBaseKeys | src/lib/utils.ts:13-16 | An object spread keeps the base's keys, in place, at the front. |
| Utils.RowFields | src/lib/utils.ts:12-17 | A row holds the entry key under `keyName` unless the spread value has its own `keyName` property, which wins. Every other property is the value's, and `keyName` is the first key. |
| Utils.PrimitiveRow | src/lib/utils.ts:13-16 | Spreading `null`, `undefined`, a boolean or a number adds nothing: the row is just the key field. |
| Utils.StringRow | src/lib/utils.ts:13-16 | Spreading a string adds each character under its index, overriding the key field. |

## Left out

- ClientCodec.MapSet: `set` assigns into the record in place. That record is shared with the constructor's argument and with the output of `flattenLoroClientMap`, which returns each `value` itself. The model returns a new tree and does not model this aliasing, because values have no heap identity.
- SyncWorker.GetContainer: a container is named by the path that reaches it. A container replaced by a new one at the same path counts as the same. Splitting a path string at `/` is not modelled: paths are given as segment sequences. Outside the `cities` root, lookups go through a fixed table that no modelled operation changes. Tree containers addressed by node id are not walked.
- Utils.StringRow: a string is a sequence of Unicode scalar values, so its characters are indexed as scalar values. JavaScript spreads UTF-16 code units, so a character outside the Basic Multilingual Plane gets two keys (its surrogate halves) there and one key here.
- Utils.RowFields: JavaScript lists integer-like keys first, so for an array, a string, or an object with such keys, the real key order puts the indices before `keyName`. The model keeps insertion order (see below).
- I/O: idb-keyval is an in-memory `Storage` record. Awaits are not modelled, and each save is one atomic step, so a crash between the three writes of `saveLoro` is not modelled.
- Loro internals: an operation set stands in for the CRDT, its merge and its binary encodings. `getByPath` walks the `cities` tree (a segment under a list is read as a decimal index) and uses a lookup table for the other roots. Event propagation is the `touched` set given to `Notify`. Subscription ids come from a counter in the model. `commit` is not modelled.
- `loro.unsubscribe` with an unknown id is assumed to be a no-op inside Loro.
- `save` in `clientObject` is `Persistence.Save` applied to the live document. The handler model does not hold the operation set, so it has no member of its own.
- msgpack byte encoding is the identity on `Value`.
- Randomness: the peer id Loro draws for a new document becomes the parameter `freshPeer`. `randomId` is not used by the modelled operations.
- Numbers are reals: NaN, infinities and -0 are not modelled. The bigint peer id is a `nat`.
- JavaScript enumerates integer-like keys before other keys. That ordering is not modelled: objects are insertion-ordered entry sequences, and Loro map iteration is taken to be insertion order.
- `__proto__` keys and inherited properties (`get("toString")`) are not modelled.
- Binary (`Uint8Array`) leaves are not a separate kind of value. How Loro stores an `undefined` leaf is not modelled.
- ClientCodec.Deserialize: a `list` payload that is neither an array, `null` nor `undefined` fails with `BadPayload`. `Array.from` would coerce it (strings, array-likes). Likewise a `map` payload that is not an object fails, where `Object.entries` would enumerate it.
- WorkerCodec.DeserializeLoroTransport: a `map` payload that is not an object, `null` or `undefined` fails with `BadPayload`, where `Object.entries` would enumerate it.
- SyncWorker.EditCity: a city value that is a movable list is assumed to reject `set("lat", …)`, because its `set` takes a numeric index.
- SharedWorker connect handling, dynamic imports and comlink `expose`/`wrap`/`proxy`/transfer-handler registration are message-passing plumbing. The handlers' `canHandle` tests are the `IsContainer()` preconditions.
- store.ts, `unpromisifyStore` (promise-driven), `cn` (class-name merging), `flyAndScale` (floating-point CSS animation) and the commented-out WebSocket client are outside the core.
- The type-level `MapLoroType`/`MappedObject` machinery has no runtime behaviour.

=== FILE: client_codec.dfy ===
/** The client side of the codec (loro-converters/client.ts): the plain mirror
    types a UI holds, and their conversion to and from transport envelopes. A
    `LoroListClient`/`LoroMovableListClient` is a `ListC` of that kind, a
    `LoroMapClient` is a `MapC` whose entries are its `value` record, and any
    other value is a `Leaf`. */
module ClientCodec {
  import opened Wrappers
  import opened JsValue
  import opened ContainerTree
  import opened Transport

  // ---------------------------------------------------------------------------
  // LoroMapClient

  /** `LoroMapClient.get(key)`: `None` is `undefined`. */
  function MapGet(m: Tree, key: string): (r: Option<Tree>)
    requires m.MapC?
    ensures r.Some? <==> HasKey(m.entries, key)
    ensures r.Some? ==> exists i | 0 <= i < |m.entries| ::
              && m.entries[i] == Entry(key, r.value)
              && forall j | 0 <= j < i :: m.entries[j].key != key
  {
    Get(m.entries, key)
  }

  /** `LoroMapClient.set(key, value)`: the record is updated by assignment. */
  function MapSet(m: Tree, key: string, value: Tree): (r: Tree)
    requires m.MapC?
    ensures r.MapC?
    ensures HasKey(m.entries, key) ==> Keys(r.entries) == Keys(m.entries)
    ensures !HasKey(m.entries, key) ==> Keys(r.entries) == Keys(m.entries) + [key]
    ensures DistinctKeys(m.entries) ==> DistinctKeys(r.entries)
  {
    PutKeepsKeysDistinct(m.entries, key, value);
    MapC(Put(m.entries, key, value))
  }

  /** `get` after `set` returns the value set, and every other key reads as
      before. */
  lemma SetThenGet(m: Tree, key: string, value: Tree, other: string)
    requires m.MapC?
    ensures MapGet(MapSet(m, key, value), key) == Some(value)
    ensures other != key ==> MapGet(MapSet(m, key, value), other) == MapGet(m, other)
  {
    GetPut(m.entries, key, value, key);
    GetPut(m.entries, key, value, other);
  }

  /** The iterator `[Symbol.iterator]()` returns: the entries captured when it
      was created and the index of the last entry handed out (-1 at first). */
  datatype EntryIterator = EntryIterator(entries: seq<Entry<Tree>>, idx: int)

  /** One `{value, done}` result; `None` is `undefined`. */
  datatype IterResult = IterResult(value: Option<Entry<Tree>>, done: bool)

  /** `[Symbol.iterator]()`: the first `next()` yields the first entry, or
      reports `done` at once on an empty record. */
  function Iterate(m: Tree): (it: EntryIterator)
    requires m.MapC?
    ensures it.idx >= -1
    ensures |m.entries| == 0 ==> Next(it).1 == IterResult(None, true)
    ensures |m.entries| > 0 ==> Next(it).1 == IterResult(Some(m.entries[0]), false)
  {
    EntryIterator(m.entries, -1)
  }

  /** `next()`: advance the index, read the entry there and report `done`
      once the index has run past the last entry. */
  function Next(it: EntryIterator): (r: (EntryIterator, IterResult))
    requires it.idx >= -1
    ensures r.0 == it.(idx := it.idx + 1)
    ensures r.1.done <==> it.idx + 1 >= |it.entries|
    ensures r.1.value.Some? <==> !r.1.done
    ensures !r.1.done ==> r.1.value.value == it.entries[it.idx + 1]
  {
    var idx := it.idx + 1;
    (it.(idx := idx),
     IterResult(if idx < |it.entries| then Some(it.entries[idx]) else None,
                idx >= |it.entries|))
  }

  /** Once the iterator has reported `done` it keeps doing so. */
  lemma DoneIsFinal(it: EntryIterator)
    requires it.idx >= -1
    requires Next(it).1.done
    ensures Next(Next(it).0).1.done
  {
  }

  /** A `for ... of` loop over a map client: it calls `next()` until `done`
      and sees exactly the entries of the record, in order. */
  method ForOf(m: Tree) returns (seen: seq<Entry<Tree>>)
    requires m.MapC?
    ensures seen == m.entries
  {
    var it := Iterate(m);
    var step := Next(it);
    it := step.0;
    seen := [];
    while !step.1.done
      invariant it.entries == m.entries
      invariant 0 <= it.idx <= |m.entries|
      invariant step.1.done <==> it.idx >= |m.entries|
      invariant !step.1.done ==> step.1.value == Some(m.entries[it.idx])
      invariant seen == m.entries[..it.idx]
      decreases |m.entries| - it.idx
    {
      seen := seen + [step.1.value.value];
      step := Next(it);
      it := step.0;
    }
  }

  // ---------------------------------------------------------------------------
  // Serialization

  /** `trySerializeLoroClient`: containers become envelopes, everything else
      passes through. */
  function TrySerialize(t: Tree): (r: Value)
    requires Convertible(t)
    ensures t.Leaf? ==> r == t.value
    ensures t.IsContainer() ==> IsLoroTransport(r) == Success(true)
    ensures t.IsContainer() ==> r == Serialize(t)
    decreases t, 1
  {
    match t
    case Leaf(v) => v
    case _ => Serialize(t)
  }

  /** `serializeLoroClient`: a list client becomes a `list` envelope, a
      movable list client a `movable-list` envelope, a map client a `map`
      envelope; the payload is converted element by element. */
  function Serialize(t: Tree): (r: Value)
    requires t.IsContainer() && Convertible(t)
    ensures IsLoroTransport(r) == Success(true)
    ensures (t.MapC? || t.ListC?) && TagOf(r) == Some(KindTag(t))
    ensures t.ListC? ==> Get(r.fields, ListPayload) == Some(Arr(SerializeItems(t.items)))
    ensures t.MapC? ==> Get(r.fields, MapPayload) == Some(Obj(SerializeEntries(t.entries)))
    decreases t, 0
  {
    match t
    case ListC(kind, items) => ListEnvelope(kind, SerializeItems(items))
    case MapC(es) => MapEnvelope(SerializeEntries(es))
  }

  /** The payload of a list envelope: each item converted, in order. */
  function SerializeItems(items: seq<Tree>): (r: seq<Value>)
    requires forall i | 0 <= i < |items| :: Convertible(items[i])
    ensures |r| == |items|
    ensures forall i | 0 <= i < |items| :: r[i] == TrySerialize(items[i])
    decreases items, 2
  {
    if |items| == 0 then []
    else [TrySerialize(items[0])] + SerializeItems(items[1..])
  }

  /** The payload of a map envelope: the record's entries in order, each value
      converted under its own key. */
  function SerializeEntries(es: seq<Entry<Tree>>): (r: seq<Entry<Value>>)
    requires forall i | 0 <= i < |es| :: Convertible(es[i].val)
    ensures |r| == |es|
    ensures forall i | 0 <= i < |es| :: r[i].key == es[i].key && r[i].val == TrySerialize(es[i].val)
    decreases es, 2
  {
    if |es| == 0 then []
    else
      [Entry(es[0].key, TrySerialize(es[0].val))] + SerializeEntries(es[1..])
  }

  // ---------------------------------------------------------------------------
  // Deserialization

  /** `tryDeserializeLoroTransport`: envelopes are rebuilt into client
      containers, other values pass through. `null` makes the recogniser
      throw. */
  function TryDeserialize(v: Value): (r: Result<Tree, Error>)
    ensures IsLoroTransport(v) == Success(false) ==> r == Success(Leaf(v))
    ensures v == Null ==> r == Failure(TypeError)
    ensures IsLoroTransport(v) == Success(true) ==> r == Deserialize(v)
    decreases v, 1
  {
    match IsLoroTransport(v)
    case Failure(e) => Failure(e)
    case Success(isEnvelope) => if isEnvelope then Deserialize(v) else Success(Leaf(v))
  }

  /** `deserializeLoroTransport`: dispatch on `value.loroType`. A tag other
      than the three throws "unimplemented"; reading the tag of `null` or
      `undefined` throws a TypeError. */
  function Deserialize(v: Value): (r: Result<Tree, Error>)
    ensures r.Success? ==> IsLoroTransport(v) == Success(true)
    ensures r.Success? ==> (r.value.MapC? || r.value.ListC?) && TagOf(v) == Some(KindTag(r.value))
    ensures (v.Null? || v.Undefined?) ==> r == Failure(TypeError)
    ensures v != Null && v != Undefined && (TagOf(v).None? || TagOf(v).value !in Tags)
            ==> r == Failure(Unimplemented)
    ensures r.Success? && r.value.ListC? ==>
              && v.Obj? && Get(v.fields, ListPayload).Some? && Get(v.fields, ListPayload).value.Arr?
              && DeserializeItems(Get(v.fields, ListPayload).value.items) == Success(r.value.items)
    ensures r.Success? && r.value.MapC? ==>
              && v.Obj? && Get(v.fields, MapPayload).Some? && Get(v.fields, MapPayload).value.Obj?
              && DeserializeEntries(Get(v.fields, MapPayload).value.fields) == Success(r.value.entries)
    ensures v.Obj? && TagOf(v).Some? && TagOf(v).value in {ListTag, MovableListTag}
            && Get(v.fields, ListPayload).Some? && Get(v.fields, ListPayload).value.Arr?
            && DeserializeItems(Get(v.fields, ListPayload).value.items).Success?
            ==> r.Success?
    ensures v.Obj? && TagOf(v) == Some(MapTag)
            && Get(v.fields, MapPayload).Some? && Get(v.fields, MapPayload).value.Obj?
            && DeserializeEntries(Get(v.fields, MapPayload).value.fields).Success?
            ==> r.Success?
    decreases v, 0
  {
    match v
    case Null => Failure(TypeError)
    case Undefined => Failure(TypeError)
    case Obj(fs) =>
      var tag := Get(fs, TagKey);
      if tag == Some(Str(ListTag)) || tag == Some(Str(MovableListTag)) then
        var kind := if tag == Some(Str(ListTag)) then Plain else Movable;
        // A list client is built item by item from the `list` payload
        match IndexOf(fs, ListPayload)
        case None => Failure(TypeError)
        case Some(i) =>
          match fs[i].val
          case Arr(items) =>
            var ts :- DeserializeItems(items);
            Success(ListC(kind, ts))
          case Null => Failure(TypeError)
          case Undefined => Failure(TypeError)
          case _ => Failure(BadPayload)
      else if tag == Some(Str(MapTag)) then
        // A map client is built entry by entry from the `map` payload
        match IndexOf(fs, MapPayload)
        case None => Failure(TypeError)
        case Some(i) =>
          match fs[i].val
          case Obj(payload) =>
            var es :- DeserializeEntries(payload);
            Success(MapC(es))
          case Null => Failure(TypeError)
          case Undefined => Failure(TypeError)
          case _ => Failure(BadPayload)
      else Failure(Unimplemented)
    case _ => Failure(Unimplemented)
  }

  /** `Array.from(list, tryDeserializeLoroTransport)`: the first element
      that throws ends the conversion. */
  function DeserializeItems(items: seq<Value>): (r: Result<seq<Tree>, Error>)
    ensures r.Success? <==> forall i | 0 <= i < |items| :: TryDeserialize(items[i]).Success?
    ensures r.Success? ==> |r.value| == |items|
    ensures r.Success? ==> forall i | 0 <= i < |items| :: TryDeserialize(items[i]) == Success(r.value[i])
    decreases items, 2
  {
    if |items| == 0 then Success([])
    else
      var t :- TryDeserialize(items[0]);
      var rest :- DeserializeItems(items[1..]);
      Success([t] + rest)
  }

  /** The entries of the `map` payload, each value converted. */
  function DeserializeEntries(fs: seq<Entry<Value>>): (r: Result<seq<Entry<Tree>>, Error>)
    ensures r.Success? <==> forall i | 0 <= i < |fs| :: TryDeserialize(fs[i].val).Success?
    ensures r.Success? ==> |r.value| == |fs|
    ensures r.Success? ==> forall i | 0 <= i < |fs| ::
              r.value[i].key == fs[i].key && TryDeserialize(fs[i].val) == Success(r.value[i].val)
    decreases fs, 2
  {
    if |fs| == 0 then Success([])
    else
      var t :- TryDeserialize(fs[0].val);
      var rest :- DeserializeEntries(fs[1..]);
      Success([Entry(fs[0].key, t)] + rest)
  }

  // ---------------------------------------------------------------------------
  // Round trip

  /** A container tree whose leaves are all safe comes back from its envelope
      structurally equal: same kinds, same keys in the same order, same items
      at the same indices. */
  lemma {:induction false} RoundTrip(t: Tree)
    requires t.IsContainer() && Convertible(t) && LeavesSafe(t)
    ensures Deserialize(Serialize(t)) == Success(t)
    decreases t, 0
  {
    match t
    case ListC(kind, items) =>
      ItemsRoundTrip(items);
      var fs := Serialize(t).fields;
      assert IndexOf(fs, ListPayload) == Some(1);
    case MapC(es) =>
      EntriesRoundTrip(es);
      var fs := Serialize(t).fields;
      assert IndexOf(fs, MapPayload) == Some(1);
  }

  lemma {:induction false} ItemRoundTrip(t: Tree)
    requires Convertible(t) && LeavesSafe(t)
    ensures TryDeserialize(TrySerialize(t)) == Success(t)
    decreases t, 1
  {
    if t.IsContainer() {
      RoundTrip(t);
    }
  }

  lemma {:induction false} ItemsRoundTrip(items: seq<Tree>)
    requires forall i | 0 <= i < |items| :: Convertible(items[i]) && LeavesSafe(items[i])
    ensures DeserializeItems(SerializeItems(items)) == Success(items)
    decreases items, 2
  {
    if |items| > 0 {
      ItemRoundTrip(items[0]);
      ItemsRoundTrip(items[1..]);
      var s := SerializeItems(items);
      var tail := SerializeItems(items[1..]);
      assert s == [TrySerialize(items[0])] + tail;
      assert s[1..] == tail;
      assert TryDeserialize(s[0]) == Success(items[0]);
      assert DeserializeItems(s[1..]) == Success(items[1..]);
      assert DeserializeItems(s) == Success([items[0]] + items[1..]);
      assert [items[0]] + items[1..] == items;
    }
  }

  lemma {:induction false} EntriesRoundTrip(es: seq<Entry<Tree>>)
    requires forall i | 0 <= i < |es| :: Convertible(es[i].val) && LeavesSafe(es[i].val)
    ensures DeserializeEntries(SerializeEntries(es)) == Success(es)
    decreases es, 2
  {
    if |es| > 0 {
      ItemRoundTrip(es[0].val);
      EntriesRoundTrip(es[1..]);
      var s := SerializeEntries(es);
      var tail := SerializeEntries(es[1..]);
      assert s == [Entry(es[0].key, TrySerialize(es[0].val))] + tail;
      assert s[1..] == tail;
      assert TryDeserialize(s[0].val) == Success(es[0].val);
      assert DeserializeEntries(s[1..]) == Success(es[1..]);
      assert DeserializeEntries(s) == Success([Entry(es[0].key, es[0].val)] + es[1..]);
      assert [Entry(es[0].key, es[0].val)] + es[1..] == es;
    }
  }

  /** Without the side condition on leaves the round trip fails: a `null`
      element serializes but makes the recogniser throw on the way back. */
  lemma NullLeafBreaksRoundTrip()
    ensures Deserialize(Serialize(ListC(Plain, [Leaf(Null)]))) == Failure(TypeError)
  {
    var v := Serialize(ListC(Plain, [Leaf(Null)]));
    assert IndexOf(v.fields, ListPayload) == Some(1);
  }

  /** ... and a leaf object tagged `loroType: "map"` comes back as a map
      container. */
  lemma EnvelopeShapedLeafIsMisread()
    ensures
      var leaf := Obj([Entry(TagKey, Str(MapTag)), Entry(MapPayload, Obj([]))]);
      var t := MapC([Entry("a", Leaf(leaf))]);
      Deserialize(Serialize(t)) == Success(MapC([Entry("a", MapC([]))]))
  {
    var leaf := Obj([Entry(TagKey, Str(MapTag)), Entry(MapPayload, Obj([]))]);
    var fs := [Entry("a", leaf)];
    assert IndexOf(leaf.fields, MapPayload) == Some(1);
    assert TryDeserialize(leaf) == Success(MapC([])) by {
      assert DeserializeEntries([]) == Success([]);
    }
    var e: seq<Entry<Tree>> := [];
    assert [Entry("a", MapC([]))] + e == [Entry("a", MapC([]))];
    assert DeserializeEntries(fs) == Success([Entry("a", MapC([]))]);
  }
}

=== FILE: container_tree.dfy ===
/** A replicated container and everything nested in it, as the worker holds it
    (live Loro containers) and as a client holds it (`LoroMapClient`,
    `LoroListClient`, `LoroMovableListClient` mirrors). A value that is not a
    container is a `Leaf`. */
module ContainerTree {
  import opened JsValue

  /** Which of the two ordered list containers: `LoroList` or `LoroMovableList`. */
  datatype ListKind = Plain | Movable

  datatype Tree =
    | Leaf(value: Value)
    | MapC(entries: seq<Entry<Tree>>)
    | ListC(kind: ListKind, items: seq<Tree>)
      /** A container kind the codecs do not handle (text, tree, counter). */
    | OtherC(name: string)
  {
    predicate IsContainer() {
      !Leaf?
    }
  }

  /** Every container in `t` is a map, a list or a movable list. The client
      mirror types can only hold trees of this shape. */
  predicate Convertible(t: Tree) {
    match t
    case Leaf(_) => true
    case MapC(es) => forall i | 0 <= i < |es| :: Convertible(es[i].val)
    case ListC(_, items) => forall i | 0 <= i < |items| :: Convertible(items[i])
    case OtherC(_) => false
  }
}

=== FILE: js_value.dfy ===
/** The JavaScript values that cross the worker boundary: the leaves of a
    container tree, the transport envelopes built around them and the arrays
    a WebSocket frame is made of.

    A plain object is an ordered sequence of entries, in the order
    `Object.entries` reports them. A JavaScript object or Loro map never
    holds a key twice (`DistinctKeys`); the datatype does not enforce this,
    so results that do not depend on it hold for any entry sequence, and the
    ones that do say so. Numbers are mathematical reals. */
module JsValue {
  import opened Wrappers

  datatype Entry<+T> = Entry(key: string, val: T)

  datatype Value =
    | Null
    | Undefined
    | Bool(b: bool)
    | Num(r: real)
    | Str(s: string)
    | Arr(items: seq<Value>)
    | Obj(fields: seq<Entry<Value>>)

  /** The errors the modelled code can throw. `TypeError` is what the engine
      raises for a property read or `in` test on `null`/`undefined` and for a
      call of a missing method; `Unimplemented` is the codecs' own
      `new Error("unimplemented")`; `BadPayload` stands for an envelope payload
      of a shape no serializer produces. */
  datatype Error = TypeError | Unimplemented | BadPayload

  /** The keys of an entry sequence, in order. */
  function Keys<T>(es: seq<Entry<T>>): (ks: seq<string>)
    ensures |ks| == |es|
  {
    if |es| == 0 then [] else [es[0].key] + Keys(es[1..])
  }

  /** Position of the first entry with key `k`. */
  function IndexOf<T>(es: seq<Entry<T>>, k: string): (r: Option<nat>)
    ensures r.Some? ==> r.value < |es| && es[r.value].key == k
    ensures r.Some? ==> forall j | 0 <= j < r.value :: es[j].key != k
    ensures r.None? ==> forall j | 0 <= j < |es| :: es[j].key != k
  {
    if |es| == 0 then None
    else if es[0].key == k then Some(0)
    else match IndexOf(es[1..], k)
      case None => None
      case Some(i) => Some(i + 1)
  }

  /** No key occurs twice. */
  predicate DistinctKeys<T>(es: seq<Entry<T>>) {
    forall i, j | 0 <= i < j < |es| :: es[i].key != es[j].key
  }

  /** Whether the object has own property `k`. */
  predicate HasKey<T>(es: seq<Entry<T>>, k: string) {
    IndexOf(es, k).Some?
  }

  /** Property read `obj[k]` on an object: `None` is `undefined`. */
  function Get<T>(es: seq<Entry<T>>, k: string): Option<T>
  {
    match IndexOf(es, k)
    case None => None
    case Some(i) => Some(es[i].val)
  }

  /** Property assignment `obj[k] = v`: an existing key keeps its position and
      takes the new value, a new key is appended. */
  function Put<T>(es: seq<Entry<T>>, k: string, v: T): (r: seq<Entry<T>>)
    ensures HasKey(es, k) ==> Keys(r) == Keys(es)
    ensures !HasKey(es, k) ==> Keys(r) == Keys(es) + [k]
  {
    if |es| == 0 then [Entry(k, v)]
    else if es[0].key == k then [Entry(k, v)] + es[1..]
    else
      var rest := Put(es[1..], k, v);
      assert ([es[0]] + rest)[1..] == rest;
      [es[0]] + rest
  }

  /** Reading back an assigned key gives the assigned value; every other key
      reads as before. */
  lemma {:induction false} GetPut<T>(es: seq<Entry<T>>, k: string, v: T, k': string)
    ensures Get(Put(es, k, v), k') == if k' == k then Some(v) else Get(es, k')
    decreases |es|
  {
    if |es| > 0 && es[0].key != k {
      GetPut(es[1..], k, v, k');
      assert Put(es, k, v)[1..] == Put(es[1..], k, v);
    } else if |es| > 0 {
      assert Put(es, k, v)[1..] == es[1..];
    }
  }

  /** Assignment keeps every existing entry's key in place and can only add
      `k`, at the end, when it was missing. */
  lemma {:induction false} PutShape<T>(es: seq<Entry<T>>, k: string, v: T)
    ensures |Put(es, k, v)| == if HasKey(es, k) then |es| else |es| + 1
    ensures forall i | 0 <= i < |es| :: Put(es, k, v)[i].key == es[i].key
    ensures !HasKey(es, k) ==> Put(es, k, v)[|es|].key == k
    decreases |es|
  {
    if |es| > 0 && es[0].key != k {
      PutShape(es[1..], k, v);
      assert Put(es, k, v)[1..] == Put(es[1..], k, v);
    }
  }

  /** Assignment never makes a key occur twice. */
  lemma PutKeepsKeysDistinct<T>(es: seq<Entry<T>>, k: string, v: T)
    ensures DistinctKeys(es) ==> DistinctKeys(Put(es, k, v))
  {
    PutShape(es, k, v);
  }

  /** JavaScript truthiness. */
  predicate Truthy(v: Value) {
    match v
    case Null => false
    case Undefined => false
    case Bool(b) => b
    case Num(r) => r != 0.0
    case Str(s) => s != ""
    case Arr(_) => true
    case Obj(_) => true
  }
}

=== FILE: persistence.dfy ===
/** Loading and saving the document (db.ts) as a state machine over the four
    stored keys `saved-snapshot`, `saved-updates`, `saved-version` and
    `peer-id`.

    The document is abstracted as the set of operations it holds. Its version
    is that set, `exportFrom(v)` is the operations not in `v`, a snapshot is
    all of them and importing is set union. */
module Persistence {
  import opened Wrappers

  /** An operation, named by the peer that made it and its counter there. */
  datatype Op = Op(peer: nat, counter: nat)

  datatype Doc = Doc(ops: set<Op>, peer: nat)

  /** The stored keys; `None` is a key never written. */
  datatype Storage = Storage(
    snapshot: Option<set<Op>>,
    updates: Option<seq<set<Op>>>,
    version: Option<set<Op>>,
    peerId: Option<nat>)

  /** Updates kept before the next save compacts them into a snapshot. */
  const MaxUpdates := 10

  const EmptyStorage := Storage(None, None, None, None)

  /** The stored update batches; an absent list reads as empty (`?? []`). */
  function UpdatesOf(s: Storage): seq<set<Op>> {
    s.updates.GetOr([])
  }

  /** The stored version; absent means "from the empty document". */
  function VersionOf(s: Storage): set<Op> {
    s.version.GetOr({})
  }

  /** `importUpdateBatch`: every batch is applied. */
  function ImportAll(ops: set<Op>, batches: seq<set<Op>>): (r: set<Op>)
    ensures ops <= r
    ensures forall i | 0 <= i < |batches| :: batches[i] <= r
    ensures forall o | o in r :: o in ops || exists i | 0 <= i < |batches| :: o in batches[i]
    decreases |batches|
  {
    if |batches| == 0 then ops
    else ImportAll(ops, batches[..|batches| - 1]) + batches[|batches| - 1]
  }

  /** The operations a load of `s` recovers. */
  function Stored(s: Storage): set<Op> {
    ImportAll(s.snapshot.GetOr({}), UpdatesOf(s))
  }

  /** `loadLoroSave`: start from the snapshot (or an empty document), reuse
      the stored peer id, apply the stored updates. `if (peerId)` treats a
      stored id of 0 like a missing one, so the document keeps the fresh id
      `freshPeer` it was created with and that id is written back. */
  function Load(s: Storage, freshPeer: nat): (r: (Doc, Storage))
    ensures r.0.ops == Stored(s)
    ensures s.peerId.Some? && s.peerId.value != 0 ==> r.0.peer == s.peerId.value && r.1 == s
    ensures s.peerId.None? || s.peerId.value == 0 ==>
              r.0.peer == freshPeer && r.1 == s.(peerId := Some(freshPeer))
  {
    var start := if s.snapshot.Some? then s.snapshot.value else {};
    var reuse := s.peerId.Some? && s.peerId.value != 0;
    var peer := if reuse then s.peerId.value else freshPeer;
    var s' := if reuse then s else s.(peerId := Some(freshPeer));
    var ops := if s.updates.Some? then ImportAll(start, s.updates.value) else start;
    (Doc(ops, peer), s')
  }

  /** `saveLoro`: the delta since the stored version is appended while fewer
      than ten updates are stored; otherwise the full state replaces the
      snapshot and the update list is emptied. The current version is stored
      either way. */
  function Save(d: Doc, s: Storage): (r: Storage)
    ensures |UpdatesOf(r)| <= MaxUpdates
    ensures r.version == Some(d.ops)
    ensures r.peerId == s.peerId
    ensures |UpdatesOf(s)| < MaxUpdates ==>
              r.snapshot == s.snapshot && UpdatesOf(r) == UpdatesOf(s) + [d.ops - VersionOf(s)]
    ensures |UpdatesOf(s)| >= MaxUpdates ==> r.snapshot == Some(d.ops) && UpdatesOf(r) == []
  {
    var update := d.ops - VersionOf(s);
    var existing := UpdatesOf(s);
    if |existing| >= MaxUpdates then
      s.(snapshot := Some(d.ops), updates := Some([]), version := Some(d.ops))
    else
      s.(updates := Some(existing + [update]), version := Some(d.ops))
  }

  /** What storage must satisfy for deltas to be complete: everything up to
      the stored version is recoverable from the snapshot and updates. */
  ghost predicate Consistent(s: Storage) {
    VersionOf(s) <= Stored(s)
  }

  lemma ImportAllAppend(ops: set<Op>, batches: seq<set<Op>>, b: set<Op>)
    ensures ImportAll(ops, batches + [b]) == ImportAll(ops, batches) + b
  {
    assert (batches + [b])[..|batches|] == batches;
  }

  /** A save from consistent storage that the document has grown out of
      leaves consistent storage holding exactly the document. */
  lemma SaveStoresDocument(d: Doc, s: Storage)
    requires Consistent(s)
    requires Stored(s) <= d.ops
    ensures Consistent(Save(d, s))
    ensures Stored(Save(d, s)) == d.ops
  {
    var r := Save(d, s);
    if |UpdatesOf(s)| < MaxUpdates {
      ImportAllAppend(s.snapshot.GetOr({}), UpdatesOf(s), d.ops - VersionOf(s));
    }
  }

  /** Loading after a save recovers the saved document. */
  lemma LoadAfterSave(d: Doc, s: Storage, freshPeer: nat)
    requires Consistent(s)
    requires Stored(s) <= d.ops
    ensures Load(Save(d, s), freshPeer).0.ops == d.ops
  {
    SaveStoresDocument(d, s);
  }

  /** Saves of a sequence of documents, one after another. */
  function SaveAll(docs: seq<Doc>, s: Storage): Storage
    decreases |docs|
  {
    if |docs| == 0 then s else SaveAll(docs[1..], Save(docs[0], s))
  }

  /** The update count cycles 0, 1, ..., 10, 0, ...: starting from `c`
      stored updates, `n` saves leave `(c + n) % 11`. */
  lemma {:induction false} UpdateCountCycles(docs: seq<Doc>, s: Storage)
    requires |UpdatesOf(s)| <= MaxUpdates
    ensures |UpdatesOf(SaveAll(docs, s))| == (|UpdatesOf(s)| + |docs|) % (MaxUpdates + 1)
    decreases |docs|
  {
    if |docs| > 0 {
      UpdateCountCycles(docs[1..], Save(docs[0], s));
    }
  }

  /** The eleventh save from empty storage writes a snapshot of the document
      it saves. */
  lemma EleventhSaveCompacts(docs: seq<Doc>)
    requires |docs| == MaxUpdates + 1
    ensures
      var before := SaveAll(docs[..MaxUpdates], EmptyStorage);
      |UpdatesOf(before)| == MaxUpdates &&
      Save(docs[MaxUpdates], before).snapshot == Some(docs[MaxUpdates].ops)
  {
    UpdateCountCycles(docs[..MaxUpdates], EmptyStorage);
  }

  /** One worker lifetime: each step adds the operations of one edit to the
      document and saves. */
  function Session(d: Doc, s: Storage, edits: seq<set<Op>>): (Doc, Storage)
    decreases |edits|
  {
    if |edits| == 0 then (d, s)
    else
      var d' := d.(ops := d.ops + edits[0]);
      Session(d', Save(d', s), edits[1..])
  }

  /** After a session that saved at least once, a fresh load sees exactly
      the document the session ended with. */
  lemma {:induction false} SessionIsRecoverable(d: Doc, s: Storage, edits: seq<set<Op>>)
    requires Consistent(s)
    requires Stored(s) <= d.ops
    ensures Consistent(Session(d, s, edits).1)
    ensures Stored(Session(d, s, edits).1) <= Session(d, s, edits).0.ops
    ensures |edits| > 0 ==> Stored(Session(d, s, edits).1) == Session(d, s, edits).0.ops
    decreases |edits|
  {
    if |edits| > 0 {
      var d' := d.(ops := d.ops + edits[0]);
      SaveStoresDocument(d', s);
      SessionIsRecoverable(d', Save(d', s), edits[1..]);
    }
  }

  /** Starting from whatever `loadLoroSave` returns, editing and saving, then
      restarting, gives back the document and keeps the peer id. */
  lemma RestartRecoversSession(s: Storage, edits: seq<set<Op>>, fresh1: nat, fresh2: nat)
    requires Consistent(s)
    requires fresh1 != 0
    ensures
      var (d0, s0) := Load(s, fresh1);
      var (d1, s1) := Session(d0, s0, edits);
      Load(s1, fresh2).0 == d1
  {
    var (d0, s0) := Load(s, fresh1);
    assert Consistent(s0) && Stored(s0) == d0.ops;
    SessionIsRecoverable(d0, s0, edits);
    SessionKeepsPeer(d0, s0, edits);
  }

  lemma {:induction false} SessionKeepsPeer(d: Doc, s: Storage, edits: seq<set<Op>>)
    ensures Session(d, s, edits).0.peer == d.peer
    ensures Session(d, s, edits).1.peerId == s.peerId
    decreases |edits|
  {
    if |edits| > 0 {
      var d' := d.(ops := d.ops + edits[0]);
      SessionKeepsPeer(d', Save(d', s), edits[1..]);
    }
  }

  /** A peer id of 0 is never reused: the next load replaces it. */
  lemma ZeroPeerIdIsReplaced(s: Storage, freshPeer: nat)
    requires s.peerId == Some(0)
    ensures Load(s, freshPeer).0.peer == freshPeer
    ensures Load(s, freshPeer).1.peerId == Some(freshPeer)
  {
  }
}

=== FILE: sync_worker.dfy ===
/** The request handlers of the shared worker's `clientObject`
    (sync-worker.ts) over an abstract document. The `cities` root map is held
    as a container tree and `getByPath` walks it, so writes made by `editCity`
    are seen by later path lookups. Paths into the other roots resolve
    through a lookup table. Loro's listener registry is a map from
    subscription id to listener. */
module SyncWorker {
  import opened Wrappers
  import opened JsValue
  import opened ContainerTree

  /** A `getByPath` argument, already split at its `/` separators. */
  type Path = seq<string>

  /** A live container is named by the path that reaches it. */
  type ContainerId = Path
  type SubId = nat
  /** A client callback proxied across the worker boundary. */
  type CallbackId = nat

  /** The name of the root map `editCity` works on. */
  const CitiesRoot := "cities"

  /** What `loro.getByPath(path)` yields. */
  datatype Resolved = Missing | LeafAt(value: Value) | ContainerAt(id: ContainerId)

  /** The closure `() => callback(container)` registered on `container`. */
  datatype Listener = Listener(container: ContainerId, callback: CallbackId)

  /** One call `callback(container)`: the whole container goes to the client. */
  datatype Push = Push(callback: CallbackId, container: ContainerId)

  /** A write made on the document but not yet committed. */
  datatype Change = SetKey(city: string, key: string, value: real)

  datatype Worker = Worker(
    others: map<Path, Resolved>,
    cities: seq<Entry<Tree>>,
    listeners: map<SubId, Listener>,
    nextSub: SubId,
    pending: seq<Change>)

  /** Subscription ids handed out so far are all below `nextSub`. */
  ghost predicate Valid(w: Worker) {
    forall id | id in w.listeners :: id < w.nextSub
  }

  /** A path segment naming a list index: a non-empty run of decimal digits. */
  function ParseIndex(s: string): Option<nat>
    decreases |s|
  {
    if |s| == 0 || !('0' <= s[|s| - 1] <= '9') then None
    else if |s| == 1 then Some((s[0] - '0') as nat)
    else
      match ParseIndex(s[..|s| - 1])
      case None => None
      case Some(n) => Some(10 * n + (s[|s| - 1] - '0') as nat)
  }

  /** Follow `p` down from `t`: a map by key, a list by index. A leaf or a
      text/tree/counter container has nothing below it. */
  function Walk(t: Tree, p: Path): Option<Tree>
    decreases |p|
  {
    if |p| == 0 then Some(t)
    else
      match t
      case MapC(es) =>
        (match Get(es, p[0])
         case None => None
         case Some(c) => Walk(c, p[1..]))
      case ListC(_, items) =>
        (match ParseIndex(p[0])
         case Some(i) => if i < |items| then Walk(items[i], p[1..]) else None
         case None => None)
      case _ => None
  }

  /** What a lookup of `p` reports when the walk ended at `o`. */
  function Found(p: Path, o: Option<Tree>): Resolved {
    match o
    case None => Missing
    case Some(Leaf(v)) => LeafAt(v)
    case Some(_) => ContainerAt(p)
  }

  /** `loro.getByPath(path)`. */
  function Resolve(w: Worker, p: Path): Resolved {
    if |p| > 0 && p[0] == CitiesRoot then Found(p, Walk(MapC(w.cities), p[1..]))
    else if p in w.others then w.others[p]
    else Missing
  }

  /** `getContainer`: the resolved value if it is a container, `null`
      otherwise (a leaf and a missing path alike). */
  function GetContainer(w: Worker, path: Path): (r: Option<ContainerId>)
    ensures r.Some? <==> Resolve(w, path).ContainerAt?
    ensures r.Some? ==> Resolve(w, path) == ContainerAt(r.value)
  {
    match Resolve(w, path)
    case ContainerAt(c) => Some(c)
    case _ => None
  }

  /** `subscribe`: on a container, register one listener and return its id;
      otherwise return `null` and register nothing. */
  function Subscribe(w: Worker, path: Path, callback: CallbackId): (r: (Option<SubId>, Worker))
    ensures r.0.None? <==> GetContainer(w, path).None?
    ensures r.0.None? ==> r.1 == w
    ensures r.0.Some? ==>
              r.1 == w.(listeners := w.listeners[r.0.value := Listener(GetContainer(w, path).value, callback)],
                        nextSub := r.1.nextSub)
    ensures Valid(w) && r.0.Some? ==> r.0.value !in w.listeners && Valid(r.1)
  {
    match GetContainer(w, path)
    case None => (None, w)
    case Some(c) =>
      var id := w.nextSub;
      (Some(id), w.(listeners := w.listeners[id := Listener(c, callback)], nextSub := id + 1))
  }

  /** `unsubscribe`: the id goes straight to the document, which drops the
      listener if it has one; an unknown id changes nothing. */
  function Unsubscribe(w: Worker, id: SubId): (r: Worker)
    ensures r.listeners.Keys == w.listeners.Keys - {id}
    ensures forall k | k in r.listeners :: r.listeners[k] == w.listeners[k]
    ensures id !in w.listeners ==> r == w
    ensures Valid(w) ==> Valid(r)
  {
    w.(listeners := w.listeners - {id})
  }

  /** The calls made when a commit reaches the containers in `touched`
      carrying the change description `diff`: every listener on a touched
      container calls its callback once with its container. */
  function Notify(w: Worker, touched: set<ContainerId>, diff: Value): (pushes: map<SubId, Push>)
    ensures pushes.Keys == set id | id in w.listeners && w.listeners[id].container in touched
    ensures forall id | id in pushes ::
              pushes[id] == Push(w.listeners[id].callback, w.listeners[id].container)
  {
    map id | id in w.listeners && w.listeners[id].container in touched ::
      Push(w.listeners[id].callback, w.listeners[id].container)
  }

  /** A subscription made on a container is called back with that container
      when a commit touches it. */
  lemma SubscribedCallbackFires(w: Worker, path: Path, callback: CallbackId,
                                touched: set<ContainerId>, diff: Value)
    requires Subscribe(w, path, callback).0.Some?
    requires GetContainer(w, path).value in touched
    ensures
      var (id, w') := Subscribe(w, path, callback);
      var pushes := Notify(w', touched, diff);
      id.value in pushes && pushes[id.value] == Push(callback, GetContainer(w, path).value)
  {
  }

  /** After `unsubscribe(id)` that subscription is never called again. */
  lemma UnsubscribedCallbackIsSilent(w: Worker, id: SubId, touched: set<ContainerId>, diff: Value)
    ensures id !in Notify(Unsubscribe(w, id), touched, diff)
  {
  }

  /** What a listener sends does not depend on the change description: the
      client receives the whole container, never a diff. `Notify` does not read
      `diff`, just as the registered closure ignores its event argument, so
      this lemma records that signature-level fact rather than proving a
      property of a computation. */
  lemma PushIgnoresDiff(w: Worker, touched: set<ContainerId>, d1: Value, d2: Value)
    ensures Notify(w, touched, d1) == Notify(w, touched, d2)
  {
  }

  /** `editCity(id, lat, long)`: look the city up in `cities`; a missing or
      falsy entry is left alone; a map gets top-level `lat` and `long` keys
      (not inside its `attrs`); any other truthy value has no `set` taking a
      key and the call throws. Nothing is committed, so the two writes stay
      pending. */
  function EditCity(w: Worker, id: string, lat: real, long: real): (r: Result<Worker, Error>)
    ensures r.Success? ==> Keys(r.value.cities) == Keys(w.cities)
    ensures r.Success? ==> r.value.others == w.others && r.value.listeners == w.listeners
                           && r.value.nextSub == w.nextSub
    ensures r.Failure? ==> r.error == TypeError
    ensures r.Failure? <==>
              && Get(w.cities, id).Some?
              && !Get(w.cities, id).value.MapC?
              && (Get(w.cities, id).value.Leaf? ==> Truthy(Get(w.cities, id).value.value))
    ensures Get(w.cities, id).None? ==> r == Success(w)
    ensures Get(w.cities, id).Some? && Get(w.cities, id).value.Leaf? && !Truthy(Get(w.cities, id).value.value)
            ==> r == Success(w)
    ensures r.Success? && DistinctKeys(w.cities) ==> DistinctKeys(r.value.cities)
  {
    match Get<Tree>(w.cities, id)
    case None => Success(w)
    case Some(Leaf(v)) => if Truthy(v) then Failure(TypeError) else Success(w)
    case Some(MapC(es)) =>
      var city := Put(Put(es, "lat", Leaf(Num(lat))), "long", Leaf(Num(long)));
      PutKeepsKeysDistinct(w.cities, id, MapC(city));
      Success(w.(cities := Put(w.cities, id, MapC(city)),
                 pending := w.pending + [SetKey(id, "lat", lat), SetKey(id, "long", long)]))
    case Some(_) => Failure(TypeError)
  }

  /** An unknown city id is a silent no-op. */
  lemma EditUnknownCityIsNoOp(w: Worker, id: string, lat: real, long: real)
    requires !HasKey(w.cities, id)
    ensures EditCity(w, id, lat, long) == Success(w)
  {
  }

  /** On a city map, `lat` and `long` read back as the arguments; every other
      key of that city (its `attrs` included) and every other city is
      unchanged; the writes are left uncommitted. */
  lemma EditKnownCity(w: Worker, id: string, lat: real, long: real, es: seq<Entry<Tree>>,
                      key: string, other: string)
    requires Get(w.cities, id) == Some(MapC(es))
    ensures EditCity(w, id, lat, long).Success?
    ensures
      var w' := EditCity(w, id, lat, long).value;
      exists city: seq<Entry<Tree>> ::
        && Get(w'.cities, id) == Some(MapC(city))
        && Get(city, "lat") == Some(Leaf(Num(lat)))
        && Get(city, "long") == Some(Leaf(Num(long)))
        && (key != "lat" && key != "long" ==> Get(city, key) == Get(es, key))
    ensures other != id ==> Get(EditCity(w, id, lat, long).value.cities, other) == Get(w.cities, other)
    ensures EditCity(w, id, lat, long).value.pending
            == w.pending + [SetKey(id, "lat", lat), SetKey(id, "long", long)]
  {
    var city := Put(Put(es, "lat", Leaf(Num(lat))), "long", Leaf(Num(long)));
    var w' := EditCity(w, id, lat, long).value;
    GetPut(w.cities, id, MapC(city), id);
    GetPut(w.cities, id, MapC(city), other);
    GetPut(Put(es, "lat", Leaf(Num(lat))), "long", Leaf(Num(long)), "lat");
    GetPut(Put(es, "lat", Leaf(Num(lat))), "long", Leaf(Num(long)), "long");
    GetPut(Put(es, "lat", Leaf(Num(lat))), "long", Leaf(Num(long)), key);
    GetPut(es, "lat", Leaf(Num(lat)), "lat");
    GetPut(es, "lat", Leaf(Num(lat)), key);
    assert Get(w'.cities, id) == Some(MapC(city));
  }

  /** Replacing one city map by another that agrees with it on the key a
      walk takes next leaves the walk's outcome as it was. */
  lemma WalkFrame(cities: seq<Entry<Tree>>, id: string, es: seq<Entry<Tree>>,
                  city: seq<Entry<Tree>>, p: Path, q: Path)
    requires Get(cities, id) == Some(MapC(es))
    requires |q| >= 2 && q[0] == id ==> Get(city, q[1]) == Get(es, q[1])
    ensures Found(p, Walk(MapC(Put(cities, id, MapC(city))), q)) == Found(p, Walk(MapC(cities), q))
  {
    var cities' := Put(cities, id, MapC(city));
    if |q| > 0 {
      GetPut(cities, id, MapC(city), q[0]);
      if q[0] == id {
        assert Walk(MapC(cities'), q) == Walk(MapC(city), q[1..]);
        assert Walk(MapC(cities), q) == Walk(MapC(es), q[1..]);
        if |q| >= 2 {
          assert q[1..][0] == q[1];
        }
      }
    }
  }

  /** After `editCity` on a city map, `getByPath` sees the uncommitted
      writes: `cities/<id>/lat` and `cities/<id>/long` resolve to the new
      numbers, and every path that is not at or below one of those two
      resolves as before. */
  lemma EditCityResolution(w: Worker, id: string, lat: real, long: real, es: seq<Entry<Tree>>, p: Path)
    requires Get(w.cities, id) == Some(MapC(es))
    ensures EditCity(w, id, lat, long).Success?
    ensures Resolve(EditCity(w, id, lat, long).value, [CitiesRoot, id, "lat"]) == LeafAt(Num(lat))
    ensures Resolve(EditCity(w, id, lat, long).value, [CitiesRoot, id, "long"]) == LeafAt(Num(long))
    ensures !(|p| >= 3 && p[0] == CitiesRoot && p[1] == id && p[2] in {"lat", "long"}) ==>
              Resolve(EditCity(w, id, lat, long).value, p) == Resolve(w, p)
  {
    var city := Put(Put(es, "lat", Leaf(Num(lat))), "long", Leaf(Num(long)));
    var w' := EditCity(w, id, lat, long).value;
    assert w'.cities == Put(w.cities, id, MapC(city));
    GetPut(w.cities, id, MapC(city), id);
    GetPut(Put(es, "lat", Leaf(Num(lat))), "long", Leaf(Num(long)), "lat");
    GetPut(Put(es, "lat", Leaf(Num(lat))), "long", Leaf(Num(long)), "long");
    GetPut(es, "lat", Leaf(Num(lat)), "lat");
    assert Get(city, "lat") == Some(Leaf(Num(lat)));
    assert Walk(MapC(w'.cities), [id, "lat"]) == Some(Leaf(Num(lat))) by {
      assert [id, "lat"][1..] == ["lat"];
      assert Walk(MapC(city), ["lat"]) == Walk(Leaf(Num(lat)), []);
    }
    assert Walk(MapC(w'.cities), [id, "long"]) == Some(Leaf(Num(long))) by {
      assert [id, "long"][1..] == ["long"];
      assert Walk(MapC(city), ["long"]) == Walk(Leaf(Num(long)), []);
    }
    if |p| > 0 && p[0] == CitiesRoot && !(|p| >= 3 && p[1] == id && p[2] in {"lat", "long"}) {
      var q := p[1..];
      if |q| >= 2 && q[0] == id {
        GetPut(Put(es, "lat", Leaf(Num(lat))), "long", Leaf(Num(long)), q[1]);
        GetPut(es, "lat", Leaf(Num(lat)), q[1]);
      }
      WalkFrame(w.cities, id, es, city, p, q);
    }
  }
}

=== FILE: transport.dfy ===
/** The transport envelope: a plain object `{loroType: "map", map}` or
    `{loroType: "list" | "movable-list", list}` standing for a container on
    the wire, and the recogniser that tells an envelope from a leaf. */
module Transport {
  import opened Wrappers
  import opened JsValue
  import opened ContainerTree

  const TagKey := "loroType"
  const MapTag := "map"
  const ListTag := "list"
  const MovableListTag := "movable-list"
  /** Name of the payload field of a map envelope and of a list envelope. */
  const MapPayload := "map"
  const ListPayload := "list"

  const Tags: set<string> := {ListTag, MovableListTag, MapTag}

  /** The string under `loroType`, when the value is an object that has one. */
  function TagOf(v: Value): Option<string> {
    if v.Obj? then
      match Get<Value>(v.fields, TagKey)
      case Some(Str(s)) => Some(s)
      case _ => None
    else None
  }

  /** `isLoroTransport`: an object value is an envelope when it has a
      `loroType` property holding one of the three tags. `null` passes the
      object test (its type reports as "object") and then makes the property
      test throw. */
  function IsLoroTransport(v: Value): (r: Result<bool, Error>)
    ensures r.Failure? <==> v == Null
    ensures r.Failure? ==> r.error == TypeError
    ensures r == Success(true) <==> TagOf(v).Some? && TagOf(v).value in Tags
  {
    match v
    case Null => Failure(TypeError)
    case Obj(fs) =>
      Success(
        match IndexOf(fs, TagKey)
        case None => false
        case Some(i) => fs[i].val in {Str(ListTag), Str(MovableListTag), Str(MapTag)})
    case _ => Success(false)
  }

  /** The tag an envelope for container `t` carries. */
  function KindTag(t: Tree): string
    requires t.MapC? || t.ListC?
  {
    match t
    case MapC(_) => MapTag
    case ListC(Plain, _) => ListTag
    case ListC(Movable, _) => MovableListTag
  }

  function MapEnvelope(payload: seq<Entry<Value>>): (r: Value)
    ensures IsLoroTransport(r) == Success(true)
    ensures TagOf(r) == Some(MapTag)
    ensures Get(r.fields, TagKey) == Some(Str(MapTag))
    ensures IndexOf(r.fields, MapPayload) == Some(1) && r.fields[1].val == Obj(payload)
  {
    var fs := [Entry(TagKey, Str(MapTag)), Entry(MapPayload, Obj(payload))];
    assert TagKey[1] != MapPayload[1];
    assert IndexOf(fs[1..], MapPayload) == Some(0);
    Obj(fs)
  }

  function ListEnvelope(kind: ListKind, items: seq<Value>): (r: Value)
    ensures IsLoroTransport(r) == Success(true)
    ensures TagOf(r) == Some(KindTag(ListC(kind, [])))
    ensures Get(r.fields, TagKey) == Some(Str(KindTag(ListC(kind, []))))
    ensures IndexOf(r.fields, ListPayload) == Some(1) && r.fields[1].val == Arr(items)
  {
    var fs := [Entry(TagKey, Str(if kind == Plain then ListTag else MovableListTag)),
               Entry(ListPayload, Arr(items))];
    assert TagKey[1] != ListPayload[1];
    assert IndexOf(fs[1..], ListPayload) == Some(0);
    Obj(fs)
  }

  /** A leaf the recogniser reads back as a leaf: not `null` and not shaped
      like an envelope. */
  predicate SafeLeaf(v: Value) {
    IsLoroTransport(v) == Success(false)
  }

  /** Every leaf of `t` is safe; the round trips hold only for such trees. */
  predicate LeavesSafe(t: Tree) {
    match t
    case Leaf(v) => SafeLeaf(v)
    case MapC(es) => forall i | 0 <= i < |es| :: LeavesSafe(es[i].val)
    case ListC(_, items) => forall i | 0 <= i < |items| :: LeavesSafe(items[i])
    case OtherC(_) => true
  }

  /** The three tags are recognised whatever else the object holds, even with
      no payload at all. */
  lemma RecognisesTag(fs: seq<Entry<Value>>, tag: string)
    requires tag in Tags
    requires Get(fs, TagKey) == Some(Str(tag))
    ensures IsLoroTransport(Obj(fs)) == Success(true)
  {
  }

  /** An object with no `loroType`, or with any other value under it, is a leaf. */
  lemma RejectsOtherTags(fs: seq<Entry<Value>>)
    requires forall tag | tag in Tags :: Get(fs, TagKey) != Some(Str(tag))
    ensures IsLoroTransport(Obj(fs)) == Success(false)
  {
  }

  /** Primitives, `undefined` and arrays are never envelopes: the `typeof`
      test or the `in` test rejects them before the tag is read. */
  lemma NonObjectsAreLeaves(v: Value)
    requires !v.Obj? && v != Null
    ensures IsLoroTransport(v) == Success(false)
  {
  }

  /** A bare `{loroType: "map"}` with no `map` field is accepted. */
  lemma TagAloneIsEnough()
    ensures IsLoroTransport(Obj([Entry(TagKey, Str(MapTag))])) == Success(true)
  {
  }
}

=== FILE: utils.dfy ===
/** The record helpers of utils.ts. */
module Utils {
  import opened Wrappers
  import opened JsValue
  import opened ContainerTree

  /** A plain object whose values are JavaScript values. */
  type Record = seq<Entry<Value>>

  /** `flattenLoroClientMap`: a record of map clients becomes the record of
      their `value` records, key for key. */
  function FlattenLoroClientMap(obj: seq<Entry<Tree>>): (r: seq<Entry<seq<Entry<Tree>>>>)
    requires forall i | 0 <= i < |obj| :: obj[i].val.MapC?
    ensures |r| == |obj|
    ensures forall i | 0 <= i < |obj| :: r[i].key == obj[i].key && obj[i].val == MapC(r[i].val)
  {
    if |obj| == 0 then []
    else [Entry(obj[0].key, obj[0].val.entries)] + FlattenLoroClientMap(obj[1..])
  }

  /** The flattened record has exactly the input's keys, in order. */
  lemma {:induction false} FlattenKeys(obj: seq<Entry<Tree>>)
    requires forall i | 0 <= i < |obj| :: obj[i].val.MapC?
    ensures Keys(FlattenLoroClientMap(obj)) == Keys(obj)
    decreases |obj|
  {
    if |obj| > 0 {
      var r := FlattenLoroClientMap(obj);
      FlattenKeys(obj[1..]);
      assert r[1..] == FlattenLoroClientMap(obj[1..]);
    }
  }

  /** Looking a key up in the flattened record gives the `.value` of the map
      client under that key. */
  lemma {:induction false} FlattenLookup(obj: seq<Entry<Tree>>, k: string)
    requires forall i | 0 <= i < |obj| :: obj[i].val.MapC?
    ensures Get(obj, k).None? ==> Get(FlattenLoroClientMap(obj), k).None?
    ensures Get(obj, k).Some? ==> Get(FlattenLoroClientMap(obj), k) == Some(Get(obj, k).value.entries)
    decreases |obj|
  {
    if |obj| > 0 {
      var r := FlattenLoroClientMap(obj);
      var tail := FlattenLoroClientMap(obj[1..]);
      assert r == [Entry(obj[0].key, obj[0].val.entries)] + tail;
      if obj[0].key == k {
        assert IndexOf(r, k) == Some(0);
        assert IndexOf(obj, k) == Some(0);
      } else {
        FlattenLookup(obj[1..], k);
        assert r[1..] == tail;
      }
    }
  }

  /** Assign every field of `fields` onto `base`, in order: the object
      spread `{...base, ...fields}`. */
  function Spread(base: Record, fields: Record): (r: Record)
    ensures |base| <= |r| <= |base| + |fields|
    ensures forall i | 0 <= i < |base| :: r[i].key == base[i].key
    decreases |fields|
  {
    if |fields| == 0 then base
    else
      PutShape(base, fields[0].key, fields[0].val);
      Spread(Put(base, fields[0].key, fields[0].val), fields[1..])
  }

  /** The character for a decimal digit. */
  function Digit(d: nat): char
    requires d < 10
  {
    ('0' as int + d) as char
  }

  /** How an array index is written as a property key. */
  function Decimal(n: nat): (s: string)
    ensures |s| > 0
    ensures n < 10 <==> |s| == 1
    decreases n
  {
    if n < 10 then [Digit(n)] else Decimal(n / 10) + [Digit(n % 10)]
  }

  /** Different indices are different keys. */
  lemma {:induction false} DecimalInjective(a: nat, b: nat)
    ensures a != b ==> Decimal(a) != Decimal(b)
    decreases a
  {
    if a != b && a >= 10 && b >= 10 {
      var da, db := Decimal(a), Decimal(b);
      if a % 10 != b % 10 {
        assert da[|da| - 1] != db[|db| - 1];
      } else {
        DecimalInjective(a / 10, b / 10);
        assert da[..|da| - 1] == Decimal(a / 10);
        assert db[..|db| - 1] == Decimal(b / 10);
      }
    }
  }

  /** The own properties of an array-like value: element `i` under the key
      `Decimal(i)`. */
  function Indexed(vs: seq<Value>): (r: Record)
    ensures |r| == |vs|
    ensures forall i | 0 <= i < |vs| :: r[i] == Entry(Decimal(i), vs[i])
  {
    seq(|vs|, i requires 0 <= i < |vs| => Entry(Decimal(i), vs[i]))
  }

  /** The one-character strings a string spreads into. */
  function Chars(s: string): (r: seq<Value>)
    ensures |r| == |s|
    ensures forall i | 0 <= i < |s| :: r[i] == Str([s[i]])
  {
    seq(|s|, i requires 0 <= i < |s| => Str([s[i]]))
  }

  /** The own enumerable properties `...value` copies: an object's entries, an
      array's elements and a string's characters under their indices, and
      nothing at all for `null`, `undefined`, booleans and numbers. */
  function OwnProps(v: Value): Record {
    match v
    case Obj(fs) => fs
    case Arr(items) => Indexed(items)
    case Str(s) => Indexed(Chars(s))
    case _ => []
  }

  /** Arrays and strings never produce a repeated key. */
  lemma OwnPropsDistinct(v: Value)
    requires v.Obj? ==> DistinctKeys(v.fields)
    ensures DistinctKeys(OwnProps(v))
  {
    if v.Arr? || v.Str? {
      var vs := if v.Arr? then v.items else Chars(v.s);
      forall i, j | 0 <= i < j < |vs|
        ensures Indexed(vs)[i].key != Indexed(vs)[j].key
      {
        DecimalInjective(i, j);
      }
    }
  }

  /** In an object with distinct keys, each entry is what its key reads. */
  lemma GetDistinct<T>(es: seq<Entry<T>>, i: nat)
    requires DistinctKeys(es) && i < |es|
    ensures Get(es, es[i].key) == Some(es[i].val)
  {
  }

  /** The element `recordToArray` builds for one entry:
      `{[keyName]: key, ...value}`. */
  function Row(keyName: string, key: string, value: Value): (r: Record)
    ensures 1 <= |r| <= 1 + |OwnProps(value)|
    ensures r[0].key == keyName
  {
    Spread([Entry(keyName, Str(key))], OwnProps(value))
  }

  /** `recordToArray`: one row per entry, in entry order. */
  function RecordToArray(obj: Record, keyName: string): (r: seq<Record>)
    ensures |r| == |obj|
    ensures forall i | 0 <= i < |obj| :: r[i] == Row(keyName, obj[i].key, obj[i].val)
  {
    if |obj| == 0 then []
    else [Row(keyName, obj[0].key, obj[0].val)] + RecordToArray(obj[1..], keyName)
  }

  /** In an object with distinct keys the first key does not occur again. */
  lemma FirstKeyNotInTail(fields: Record)
    requires DistinctKeys(fields) && |fields| > 0
    ensures Get(fields[1..], fields[0].key).None?
  {
  }

  /** A spread field wins over the base. */
  lemma {:induction false} SpreadGet(base: Record, fields: Record, k: string)
    requires DistinctKeys(fields)
    ensures Get(Spread(base, fields), k) == if Get(fields, k).Some? then Get(fields, k) else Get(base, k)
    decreases |fields|
  {
    if |fields| > 0 {
      var f := fields[0];
      SpreadGet(Put(base, f.key, f.val), fields[1..], k);
      GetPut(base, f.key, f.val, k);
      if f.key == k {
        FirstKeyNotInTail(fields);
      }
    }
  }

  /** The keys of the base keep their places at the front. */
  lemma {:induction false} SpreadKeepsBaseKeys(base: Record, fields: Record)
    ensures |Keys(base)| <= |Keys(Spread(base, fields))|
    ensures Keys(Spread(base, fields))[..|Keys(base)|] == Keys(base)
    decreases |fields|
  {
    if |fields| > 0 {
      var base' := Put(base, fields[0].key, fields[0].val);
      SpreadKeepsBaseKeys(base', fields[1..]);
      assert Keys(base')[..|Keys(base)|] == Keys(base);
    }
  }

  /** Every row carries the entry key under `keyName` unless the value has
      its own `keyName` property, which then wins; every other property is the
      value's; `keyName` is the first key of the row. */
  lemma RowFields(keyName: string, key: string, value: Value, k: string)
    requires value.Obj? ==> DistinctKeys(value.fields)
    ensures Get(Row(keyName, key, value), k) ==
              if Get(OwnProps(value), k).Some? then Get(OwnProps(value), k)
              else if k == keyName then Some(Str(key))
              else None
    ensures |Row(keyName, key, value)| > 0 && Keys(Row(keyName, key, value))[0] == keyName
  {
    OwnPropsDistinct(value);
    SpreadGet([Entry(keyName, Str(key))], OwnProps(value), k);
    SpreadKeepsBaseKeys([Entry(keyName, Str(key))], OwnProps(value));
    assert Keys([Entry(keyName, Str(key))]) == [keyName];
  }

  /** Spreading `null`, `undefined`, a boolean or a number adds nothing: the
      row holds only the key. */
  lemma PrimitiveRow(keyName: string, key: string, value: Value)
    requires value.Null? || value.Undefined? || value.Bool? || value.Num?
    ensures Row(keyName, key, value) == [Entry(keyName, Str(key))]
  {
  }

  /** Spreading a string adds its characters under their indices, and they
      win over the key field. */
  lemma StringRow(keyName: string, key: string, s: string, i: nat)
    requires i < |s|
    ensures Get(Row(keyName, key, Str(s)), Decimal(i)) == Some(Str([s[i]]))
  {
    OwnPropsDistinct(Str(s));
    GetDistinct(Indexed(Chars(s)), i);
    RowFields(keyName, key, Str(s), Decimal(i));
  }
}

=== FILE: worker_codec.dfy ===
/** The worker side of the codec (loro-converters/worker.ts): live Loro
    containers to transport envelopes and back. Unlike the client mirrors, a
    live document can also hold text, tree and counter containers
    (`OtherC`), which the codec refuses. */
module WorkerCodec {
  import opened Wrappers
  import opened JsValue
  import opened ContainerTree
  import opened Transport
  import ClientCodec

  // ---------------------------------------------------------------------------
  // Serialization

  /** The per-value step of both loops: a container is converted, any other
      value is copied as it is. */
  function SerializeItem(t: Tree): (r: Result<Value, Error>)
    ensures t.Leaf? ==> r == Success(t.value)
    ensures r.Failure? <==> !Convertible(t)
    ensures r.Failure? ==> r.error == Unimplemented
    ensures t.IsContainer() ==> r == SerializeContainer(t)
    decreases t, 1
  {
    match t
    case Leaf(v) => Success(v)
    case _ => SerializeContainer(t)
  }

  /** `serializeContainer`: maps and the two list kinds become envelopes;
      any other container throws "unimplemented", and so does a map or list
      that holds one at any depth. */
  function SerializeContainer(t: Tree): (r: Result<Value, Error>)
    requires t.IsContainer()
    ensures r.Failure? <==> !Convertible(t)
    ensures r.Failure? ==> r.error == Unimplemented
    ensures r.Success? ==> IsLoroTransport(r.value) == Success(true)
    ensures r.Success? ==> (t.MapC? || t.ListC?) && TagOf(r.value) == Some(KindTag(t))
    ensures r.Success? && t.MapC? ==>
              SerializeLoroMap(t.entries).Success?
              && Get(r.value.fields, MapPayload) == Some(Obj(SerializeLoroMap(t.entries).value))
    ensures r.Success? && t.ListC? ==>
              SerializeLoroList(t.items).Success?
              && Get(r.value.fields, ListPayload) == Some(Arr(SerializeLoroList(t.items).value))
    decreases t, 0
  {
    match t
    case MapC(es) =>
      var fs :- SerializeLoroMap(es);
      Success(MapEnvelope(fs))
    case ListC(kind, items) =>
      var vs :- SerializeLoroList(items);
      Success(ListEnvelope(kind, vs))
    case OtherC(_) => Failure(Unimplemented)
  }

  /** The loop of `serializeLoroMap`: every key is kept, in order. */
  function SerializeLoroMap(es: seq<Entry<Tree>>): (r: Result<seq<Entry<Value>>, Error>)
    ensures r.Failure? <==> exists i | 0 <= i < |es| :: !Convertible(es[i].val)
    ensures r.Failure? ==> r.error == Unimplemented
    ensures r.Success? ==> |r.value| == |es|
    ensures r.Success? ==> forall i | 0 <= i < |es| ::
              r.value[i].key == es[i].key && SerializeItem(es[i].val) == Success(r.value[i].val)
    decreases es, 2
  {
    if |es| == 0 then Success([])
    else
      var v :- SerializeItem(es[0].val);
      var rest :- SerializeLoroMap(es[1..]);
      Success([Entry(es[0].key, v)] + rest)
  }

  /** The loop of `serializeLoroList`: index `i` of the result holds the
      converted element `i`. */
  function SerializeLoroList(items: seq<Tree>): (r: Result<seq<Value>, Error>)
    ensures r.Failure? <==> exists i | 0 <= i < |items| :: !Convertible(items[i])
    ensures r.Failure? ==> r.error == Unimplemented
    ensures r.Success? ==> |r.value| == |items|
    ensures r.Success? ==> forall i | 0 <= i < |items| :: SerializeItem(items[i]) == Success(r.value[i])
    decreases items, 2
  {
    if |items| == 0 then Success([])
    else
      var v :- SerializeItem(items[0]);
      var rest :- SerializeLoroList(items[1..]);
      Success([v] + rest)
  }

  // ---------------------------------------------------------------------------
  // Deserialization

  /** The per-value step of both loops: `isLoroTransport(v)` picks between
      `setContainer`/`insertContainer` of the rebuilt container and a plain
      `set`/`insert`. */
  function DeserializeItem(v: Value): (r: Result<Tree, Error>)
    ensures IsLoroTransport(v) == Success(false) ==> r == Success(Leaf(v))
    ensures v == Null ==> r == Failure(TypeError)
    ensures IsLoroTransport(v) == Success(true) ==> r == DeserializeLoroTransport(v)
    decreases v, 1
  {
    match IsLoroTransport(v)
    case Failure(e) => Failure(e)
    case Success(isEnvelope) =>
      if isEnvelope then DeserializeLoroTransport(v) else Success(Leaf(v))
  }

  /** `deserializeLoroTransport`: a list tag builds a list of that kind, the
      map tag a map; any other tag throws "unimplemented". */
  function DeserializeLoroTransport(v: Value): (r: Result<Tree, Error>)
    ensures r.Success? ==> IsLoroTransport(v) == Success(true)
    ensures r.Success? ==> (r.value.MapC? || r.value.ListC?) && TagOf(v) == Some(KindTag(r.value))
    ensures (v.Null? || v.Undefined?) ==> r == Failure(TypeError)
    ensures v != Null && v != Undefined && (TagOf(v).None? || TagOf(v).value !in Tags)
            ==> r == Failure(Unimplemented)
    ensures r.Success? && r.value.ListC? ==>
              && v.Obj? && Get(v.fields, ListPayload).Some? && Get(v.fields, ListPayload).value.Arr?
              && DeserializeLoroList(Get(v.fields, ListPayload).value.items) == Success(r.value.items)
    ensures r.Success? && r.value.MapC? ==>
              && v.Obj? && Get(v.fields, MapPayload).Some? && Get(v.fields, MapPayload).value.Obj?
              && DeserializeLoroMap(Get(v.fields, MapPayload).value.fields) == Success(r.value.entries)
    ensures v.Obj? && TagOf(v).Some? && TagOf(v).value in {ListTag, MovableListTag}
            && Get(v.fields, ListPayload).Some? && Get(v.fields, ListPayload).value.Arr?
            && DeserializeLoroList(Get(v.fields, ListPayload).value.items).Success?
            ==> r.Success?
    ensures v.Obj? && TagOf(v) == Some(MapTag)
            && Get(v.fields, MapPayload).Some? && Get(v.fields, MapPayload).value.Obj?
            && DeserializeLoroMap(Get(v.fields, MapPayload).value.fields).Success?
            ==> r.Success?
    decreases v, 0
  {
    match v
    case Null => Failure(TypeError)
    case Undefined => Failure(TypeError)
    case Obj(fs) =>
      var tag := Get(fs, TagKey);
      if tag == Some(Str(ListTag)) || tag == Some(Str(MovableListTag)) then
        var kind := if tag == Some(Str(ListTag)) then Plain else Movable;
        // Only an array payload can be iterated; anything else throws
        match IndexOf(fs, ListPayload)
        case None => Failure(TypeError)
        case Some(i) =>
          match fs[i].val
          case Arr(items) =>
            var ts :- DeserializeLoroList(items);
            Success(ListC(kind, ts))
          case _ => Failure(TypeError)
      else if tag == Some(Str(MapTag)) then
        // The entries of the `map` payload are enumerated
        match IndexOf(fs, MapPayload)
        case None => Failure(TypeError)
        case Some(i) =>
          match fs[i].val
          case Obj(payload) =>
            var es :- DeserializeLoroMap(payload);
            Success(MapC(es))
          case Null => Failure(TypeError)
          case Undefined => Failure(TypeError)
          case _ => Failure(BadPayload)
      else Failure(Unimplemented)
    case _ => Failure(Unimplemented)
  }

  /** The loop of `deserializeLoroMap`: each entry is set under its own key. */
  function DeserializeLoroMap(fs: seq<Entry<Value>>): (r: Result<seq<Entry<Tree>>, Error>)
    ensures r.Success? <==> forall i | 0 <= i < |fs| :: DeserializeItem(fs[i].val).Success?
    ensures r.Success? ==> |r.value| == |fs|
    ensures r.Success? ==> forall i | 0 <= i < |fs| ::
              r.value[i].key == fs[i].key && DeserializeItem(fs[i].val) == Success(r.value[i].val)
    decreases fs, 2
  {
    if |fs| == 0 then Success([])
    else
      var t :- DeserializeItem(fs[0].val);
      var rest :- DeserializeLoroMap(fs[1..]);
      Success([Entry(fs[0].key, t)] + rest)
  }

  /** The loop of `deserializeLoroList`: item `i` is inserted at index `i`. */
  function DeserializeLoroList(items: seq<Value>): (r: Result<seq<Tree>, Error>)
    ensures r.Success? <==> forall i | 0 <= i < |items| :: DeserializeItem(items[i]).Success?
    ensures r.Success? ==> |r.value| == |items|
    ensures r.Success? ==> forall i | 0 <= i < |items| :: DeserializeItem(items[i]) == Success(r.value[i])
    decreases items, 2
  {
    if |items| == 0 then Success([])
    else
      var t :- DeserializeItem(items[0]);
      var rest :- DeserializeLoroList(items[1..]);
      Success([t] + rest)
  }

  // ---------------------------------------------------------------------------
  // Round trip and agreement with the client codec

  /** A map/list tree whose leaves are all safe comes back from its envelope
      structurally equal. */
  lemma {:induction false} RoundTrip(t: Tree)
    requires t.IsContainer() && Convertible(t) && LeavesSafe(t)
    ensures SerializeContainer(t).Success?
    ensures DeserializeLoroTransport(SerializeContainer(t).value) == Success(t)
    decreases t, 0
  {
    match t
    case ListC(kind, items) =>
      ListRoundTrip(items);
      var fs := SerializeContainer(t).value.fields;
      assert IndexOf(fs, ListPayload) == Some(1);
    case MapC(es) =>
      MapRoundTrip(es);
      var fs := SerializeContainer(t).value.fields;
      assert IndexOf(fs, MapPayload) == Some(1);
  }

  lemma {:induction false} ItemRoundTrip(t: Tree)
    requires Convertible(t) && LeavesSafe(t)
    ensures SerializeItem(t).Success?
    ensures DeserializeItem(SerializeItem(t).value) == Success(t)
    decreases t, 1
  {
    if t.IsContainer() {
      RoundTrip(t);
    }
  }

  lemma {:induction false} ListRoundTrip(items: seq<Tree>)
    requires forall i | 0 <= i < |items| :: Convertible(items[i]) && LeavesSafe(items[i])
    ensures SerializeLoroList(items).Success?
    ensures DeserializeLoroList(SerializeLoroList(items).value) == Success(items)
    decreases items, 2
  {
    if |items| > 0 {
      ItemRoundTrip(items[0]);
      ListRoundTrip(items[1..]);
      var s := SerializeLoroList(items).value;
      var tail := SerializeLoroList(items[1..]).value;
      assert s == [SerializeItem(items[0]).value] + tail;
      assert s[1..] == tail;
      assert DeserializeItem(s[0]) == Success(items[0]);
      assert DeserializeLoroList(s) == Success([items[0]] + items[1..]);
      assert [items[0]] + items[1..] == items;
    }
  }

  lemma {:induction false} MapRoundTrip(es: seq<Entry<Tree>>)
    requires forall i | 0 <= i < |es| :: Convertible(es[i].val) && LeavesSafe(es[i].val)
    ensures SerializeLoroMap(es).Success?
    ensures DeserializeLoroMap(SerializeLoroMap(es).value) == Success(es)
    decreases es, 2
  {
    if |es| > 0 {
      ItemRoundTrip(es[0].val);
      MapRoundTrip(es[1..]);
      var s := SerializeLoroMap(es).value;
      var tail := SerializeLoroMap(es[1..]).value;
      assert s == [Entry(es[0].key, SerializeItem(es[0].val).value)] + tail;
      assert s[1..] == tail;
      assert DeserializeItem(s[0].val) == Success(es[0].val);
      assert DeserializeLoroMap(s) == Success([Entry(es[0].key, es[0].val)] + es[1..]);
      assert [Entry(es[0].key, es[0].val)] + es[1..] == es;
    }
  }

  /** Both sides put the same envelope on the wire for the same tree. */
  lemma {:induction false} SameWireShape(t: Tree)
    requires t.IsContainer() && Convertible(t)
    ensures SerializeContainer(t) == Success(ClientCodec.Serialize(t))
    decreases t, 0
  {
    match t
    case ListC(kind, items) => SameWireShapeItems(items);
    case MapC(es) => SameWireShapeEntries(es);
  }

  lemma {:induction false} SameWireShapeItem(t: Tree)
    requires Convertible(t)
    ensures SerializeItem(t) == Success(ClientCodec.TrySerialize(t))
    decreases t, 1
  {
    if t.IsContainer() {
      SameWireShape(t);
    }
  }

  lemma {:induction false} SameWireShapeItems(items: seq<Tree>)
    requires forall i | 0 <= i < |items| :: Convertible(items[i])
    ensures SerializeLoroList(items) == Success(ClientCodec.SerializeItems(items))
    decreases items, 2
  {
    if |items| > 0 {
      SameWireShapeItem(items[0]);
      SameWireShapeItems(items[1..]);
    }
  }

  lemma {:induction false} SameWireShapeEntries(es: seq<Entry<Tree>>)
    requires forall i | 0 <= i < |es| :: Convertible(es[i].val)
    ensures SerializeLoroMap(es) == Success(ClientCodec.SerializeEntries(es))
    decreases es, 2
  {
    if |es| > 0 {
      SameWireShapeItem(es[0].val);
      SameWireShapeEntries(es[1..]);
    }
  }

  /** A container the worker pushes is rebuilt by the client as the same
      tree. */
  lemma WorkerToClient(t: Tree)
    requires t.IsContainer() && Convertible(t) && LeavesSafe(t)
    ensures SerializeContainer(t).Success?
    ensures ClientCodec.Deserialize(SerializeContainer(t).value) == Success(t)
  {
    SameWireShape(t);
    ClientCodec.RoundTrip(t);
  }

  /** A client container sent to the worker is rebuilt there as the same
      tree. */
  lemma ClientToWorker(t: Tree)
    requires t.IsContainer() && Convertible(t) && LeavesSafe(t)
    ensures DeserializeLoroTransport(ClientCodec.Serialize(t)) == Success(t)
  {
    SameWireShape(t);
    RoundTrip(t);
  }

  /** A text container anywhere in the tree makes serialization throw. */
  lemma NestedTextIsUnimplemented(key: string)
    ensures SerializeContainer(MapC([Entry(key, OtherC("text"))])) == Failure(Unimplemented)
  {
    assert !Convertible(OtherC("text"));
  }

  /** A `null` value in a map serializes, but the rebuilt map cannot be made:
      the recogniser throws on it. */
  lemma NullLeafBreaksRoundTrip(key: string)
    ensures SerializeContainer(MapC([Entry(key, Leaf(Null))])).Success?
    ensures DeserializeLoroTransport(SerializeContainer(MapC([Entry(key, Leaf(Null))])).value)
            == Failure(TypeError)
  {
    var t := MapC([Entry(key, Leaf(Null))]);
    assert Convertible(t);
    var v := SerializeContainer(t).value;
    assert IndexOf(v.fields, MapPayload) == Some(1);
  }
}

=== FILE: wrappers.dfy ===
/** Option and Result, the failure-compatible wrappers the rest of the model
    uses for JavaScript's `undefined`/`null` results and thrown errors. */
module Wrappers {

  datatype Option<+T> = None | Some(value: T) {

    predicate IsFailure() {
      None?
    }

    function PropagateFailure<U>(): Option<U>
      requires None?
    {
      None
    }

    function Extract(): T
      requires Some?
    {
      value
    }

    /** The value, or `default` when there is none (JavaScript's `??`). */
    function GetOr(default: T): T {
      match this
      case Some(v) => v
      case None => default
    }
  }

  datatype Result<+R, +E> = Success(value: R) | Failure(error: E) {

    predicate IsFailure() {
      Failure?
    }

    function PropagateFailure<U>(): Result<U, E>
      requires Failure?
    {
      Failure(error)
    }

    function Extract(): R
      requires Success?
    {
      value
    }
  }
}

=== FILE: ws_message.dfy ===
/** WebSocket message framing (ws-message.ts): a message travels as the
    two-element array `[type, payload]`, packed with msgpack. The msgpack
    byte codec is taken to be the identity on `Value`s, so the frame is the
    array itself. */
module WsMessage {
  import opened Wrappers
  import opened JsValue

  datatype Message = Sync(random: real) | ApplyDelta(asd: real)
  {
    /** The number a message carries, whatever its variant calls it. */
    function Payload(): real {
      if Sync? then random else asd
    }
  }

  const SyncType := "Sync"
  const ApplyDeltaType := "ApplyDelta"

  /** `msgpackEncode` / `msgpackDecode`, abstracted. */
  function Pack(v: Value): Value { v }
  function Unpack(bytes: Value): Value { bytes }

  /** Array index read: past the end it is `undefined`. */
  function At(items: seq<Value>, i: nat): Value {
    if i < |items| then items[i] else Undefined
  }

  function Encode(m: Message): (bytes: Value)
    ensures Unpack(bytes).Arr? && |Unpack(bytes).items| == 2
    ensures Unpack(bytes).items[0] == Str(if m.Sync? then SyncType else ApplyDeltaType)
    ensures Unpack(bytes).items[1] == Num(m.Payload())
  {
    match m
    case Sync(random) => Pack(Arr([Str(SyncType), Num(random)]))
    case ApplyDelta(asd) => Pack(Arr([Str(ApplyDeltaType), Num(asd)]))
  }

  /** `null` for anything but an array whose element 0 is a known type and
      whose element 1 is a number; further elements are not looked at. */
  function Decode(bytes: Value): (r: Option<Message>)
    ensures r.Some? <==>
              && Unpack(bytes).Arr?
              && At(Unpack(bytes).items, 0) in {Str(SyncType), Str(ApplyDeltaType)}
              && At(Unpack(bytes).items, 1).Num?
    ensures r.Some? ==> (r.value.Sync? <==> At(Unpack(bytes).items, 0) == Str(SyncType))
    ensures r.Some? ==> At(Unpack(bytes).items, 1) == Num(r.value.Payload())
  {
    var raw := Unpack(bytes);
    if !raw.Arr? then None
    else
      match At(raw.items, 0)
      case Str(t) =>
        if t == SyncType then
          (match At(raw.items, 1) case Num(n) => Some(Sync(n)) case _ => None)
        else if t == ApplyDeltaType then
          (match At(raw.items, 1) case Num(n) => Some(ApplyDelta(n)) case _ => None)
        else None
      case _ => None
  }

  lemma RoundTrip(m: Message)
    ensures Decode(Encode(m)) == Some(m)
  {
  }

  /** Every frame `Decode` accepts is the encoding of its message, possibly
      followed by extra elements. */
  lemma {:induction false} DecodeInvertsEncode(bytes: Value, m: Message)
    requires Decode(bytes) == Some(m)
    ensures |Unpack(bytes).items| >= 2
    ensures Unpack(Encode(m)).items == Unpack(bytes).items[..2]
  {
    var items := Unpack(bytes).items;
    assert |items| >= 2;
    match m
    case Sync(n) => assert items[1] == Num(n);
    case ApplyDelta(n) => assert items[1] == Num(n);
  }

  /** Elements after the payload do not change the result. */
  lemma ExtraElementsIgnored(items: seq<Value>, extra: seq<Value>)
    requires |items| >= 2
    ensures Decode(Arr(items + extra)) == Decode(Arr(items))
  {
    assert At(items + extra, 0) == At(items, 0);
    assert At(items + extra, 1) == At(items, 1);
  }

  lemma Rejections(v: Value, tag: string, payload: Value)
    ensures !v.Arr? ==> Decode(v) == None
    ensures Decode(Arr([])) == None
    ensures tag != SyncType && tag != ApplyDeltaType ==> Decode(Arr([Str(tag), payload])) == None
    ensures !payload.Num? ==> Decode(Arr([Str(tag), payload])) == None
  {
  }
}
